=== FILE: README.md ===
# Survey submission endpoint, modelled in Dafny

This project models the core of a small Flask survey service. There are two
parts:

- **`SurveySubmission` and `StoredSurveyRecord`** (`models.py`). This part
  covers the field rules of a survey answer, the `_strip_comments` and
  `_must_consent` validators, the per-hour submission id
  (`compute_submission_id`), the anonymised dict (`to_safe_dict`), and the
  shape of the stored record with its `source="other"` default.
- **`submit_survey`**, the `POST /v1/survey` handler (`app.py`, lines 21-48).
  This part covers:
  - how a request is classified: 400 when there is no JSON, 422 when a field
    fails, an escaping `TypeError` when the body cannot be passed as keyword
    arguments (it is not a mapping, or it has a `__pydantic_self__` key), and
    201 when the answer is accepted;
  - the `User-Agent` backfill;
  - the `X-Forwarded-For` / peer address / `""` choice for `ip`;
  - the single append of one record to the log.

Everything is pure. The handler is a function of the parsed body, the
headers, the peer address, the current instant and the log, and it returns
the outcome together with the new log. Pydantic (version 1) is modelled at
the level the two models observe:

- each declared field is coerced to its type first, then its `Field(...)`
  constraints run, then its `@validator`s;
- the validators run only when the earlier steps passed;
- every failing field is reported, in declaration order;
- an absent required field is "field required";
- a JSON `null` on a required field is "none is not an allowed value".

The parts the model cannot compute are parameters:

- **SHA-256.** `Digest.Sha256Hex` stands for
  `hashlib.sha256(text.encode()).hexdigest()`. The only thing assumed about it
  is that the output is 64 lower-case hexadecimal characters.
- **`EmailStr`.** `FieldCoercion.EmailValidator` stands for the address check and
  normalisation. The only thing assumed about it is that an accepted address
  contains `@`.
- **The clock.** The current instant is passed in as a `Clock.UtcTime`.

Module layout:

| module | file | contents |
|---|---|---|
| `Wrappers` | wrappers.dfy | `Option`, `Result` |
| `JsonData` | json_data.dfy | parsed JSON values, which also stand for the Python values of a `.dict()` |
| `PyText` | pytext.dfy | `str.isspace`, `str.strip`, `str.lower` |
| `Decimal` | decimal.dfy | `str(int)`, zero-padded `%0Nd`, `int(str)` |
| `Clock` | clock.dfy | UTC instants, and the `%Y%m%d%H` hour stamp |
| `Digest` | digest.dfy | the hex-digest shape |
| `FieldCoercion` | coercion.dfy | pydantic's str/int/bool coercions, length and range checks, error messages and types |
| `Models` | models.dfy | `SurveySubmission`, `compute_submission_id`, `to_safe_dict`, `StoredSurveyRecord` |
| `SurveyApp` | app.dfy | `submit_survey` as written, a corrected variant, and a worked example |

## Model

| member | source | states |
|---|---|---|
| FieldCoercion.Required | models.py:8-12 | A required field that is absent fails as "field required". A `null` value fails as "none is not an allowed value". Any other value goes on to coercion. |
| FieldCoercion.StrValue | models.py:45-47 | A `str` field accepts strings and turns integers into their decimal text, which is why an integer `age` is stored as text. Booleans become `"True"` or `"False"`. Exactly `null`, arrays and objects are refused, always with `type_error.str`. |
| FieldCoercion.IntValue | models.py:10-12 | An `int` field accepts integers as they are, and booleans as 1 or 0. It accepts a string exactly when `int()` parses it, with the parsed value, and otherwise refuses it with `type_error.integer`. `null`, arrays and objects are refused with the same error. |
| Decimal.ParseInt | models.py:10 | `int(s)` succeeds only for strings within pydantic's 4300-character limit that hold none of U+001C-U+001F. `str.isspace()` counts those four as whitespace, but `int()` does not skip them. What is left after stripping must be an optional sign and then digit groups joined by single underscores. These conditions are also sufficient. The value is the digits without their underscores, negated after a minus sign. |
| Decimal.IntSkipsSpace | models.py:10 | `int("\t30 ")` is 30: a tab and a blank around the digits are skipped. |
| Decimal.IntRejectsSeparator | models.py:10 | `int("\x1c30")` fails: a leading file separator is not skipped. |
| Decimal.DropUnderscores | models.py:10 | Dropping the underscores leaves only digits, is no longer than the input, and keeps every other character as often as it occurs. |
| Decimal.IntDropsUnderscores | models.py:10 | `int("1_000") == 1000`: the underscore between digit groups is dropped. |
| Models.AgeTextThroughInt | models.py:10 | An `age` of "\t30 " is accepted as 30. An `age` of "\x1c30" fails with the integer type error, so the request gets 422. |
| Models.CoercedFieldValues | models.py:8-16 | Values of another JSON type are converted before the constraints apply: `age` "30" is 30, `rating` `true` is 1, `name` 7 is "7", `comments` 5 is "5", and `submission_id` 42 is "42". |
| PyText.Lower | models.py:11 | `lower()` keeps the length, leaves no ASCII capital, turns each ASCII capital into its small letter and leaves every other character alone. The boolean words are compared after this step. |
| FieldCoercion.BoolValue | models.py:11 | A `bool` field reads as true exactly for `True`, `1` and the words 1/on/t/true/y/yes (any case). It reads as false exactly for `False`, `0` and 0/off/f/false/n/no. |
| FieldCoercion.CheckLength | models.py:8 | A length constraint passes exactly when the length lies within both bounds, and then keeps the value. Otherwise it reports which bound was broken. |
| FieldCoercion.CheckRange | models.py:10 | A `ge`/`le` constraint passes exactly when the value lies in the closed range. Otherwise it reports `not_ge` for a value below the range and `not_le` for one above it. |
| FieldCoercion.LimitValue | app.py:40 | An error entry carries `ctx` `{"limit_value": n}` exactly for the length and range errors. `n` is the violated bound: `min_length`, `max_length`, `ge` or `le`. |
| FieldCoercion.Message | app.py:40 | An entry's `msg` is a validator's own message verbatim. For a range error it ends with the limit in decimal. For a length error it ends with the limit followed by " characters". |
| FieldCoercion.TypeCode | app.py:40 | An entry's `type` starts with `type_error.` for the errors derived from `TypeError` and with `value_error.` for the other pydantic errors. It is the bare `value_error` exactly for a validator's own `ValueError`. |
| FieldCoercion.EntryTextsIdentifyError | app.py:40 | Two errors with the same `type`, `msg` and `ctx` are the same error, so an entry tells exactly what went wrong. |
| FieldCoercion.Report | app.py:40 | A field contributes no error entry when it passed, and exactly one entry naming itself and its error when it failed. |
| Models.ValidateName | models.py:8 | The value is first converted to text: a string as it is, an integer as its decimal text, a boolean as "True" or "False". The text is accepted exactly when it has 1-100 characters, and it is kept untrimmed. Too short is `min_length`, too long is `max_length`. An absent name is "field required", `null` is `none.not_allowed`, and any other value is `type_error.str`. |
| Models.ValidateEmail | models.py:9 | The value is first converted to text, as for `name`. The text is accepted exactly when the `EmailStr` check accepts it, and the result is the normalised address, which contains `@`. Otherwise the error is `value_error.email`. Absent, `null` and unconvertible values fail as for `name`. |
| Models.ValidateBoundedInt | models.py:10-12 | The value is first converted to an integer: an integer as it is, a boolean as 1 or 0, a string through `int()`. The number is accepted exactly when it lies in [lo, hi], and is then kept. Below the range it fails as `not_ge(lo)`, above it as `not_le(hi)`. A value that does not convert is `type_error.integer`, and `null` is `none.not_allowed`. |
| Models.MustConsent | models.py:37-41 | `_must_consent` passes exactly `True`. Anything else fails with "consent must be true". |
| Models.ValidateConsent | models.py:11 | `consent` is accepted exactly when the value reads as `True`. A value reading as `False` fails with "consent must be true". An absent value is "field required", because the validator never sees it. |
| Models.StripComments | models.py:33-35 | `_strip_comments` keeps `None` as `None`. A string becomes its `strip()`, which is stripped and never longer. |
| Models.ValidateComments | models.py:13 | A comment is first converted to text, as for `name`. It is accepted exactly when the raw text has at most 1000 characters, and the stored value is the stripped text. A longer text fails as `max_length`, and an unconvertible value as `type_error.str`. Absent or `null` gives `None`. |
| Models.ValidateOptionalStr | models.py:15-16 | An optional string field maps absent or `null` to `None`. Any other value is converted to text, as for `name`, and kept. It fails, always with "str type expected", exactly when the value does not convert. |
| Models.Validate | models.py:7-16 | A payload is accepted exactly when all eight field validators pass. The submission then holds each validator's value and satisfies every field rule. A rejected payload reports at least one error. |
| Models.ValidateAcceptsIffNoFieldFails | models.py:7-16 | A payload is accepted exactly when no declared field fails. |
| Models.ValidateErrorsAreFieldFailures | models.py:7-16 | The errors of a rejected payload are exactly the failures of its fields. An entry (field, error) is present exactly when that field's validator reports that error. |
| Models.FieldBoundaries | models.py:10-13 | At the edges, age 12 and 121 are refused and 13 and 120 accepted; rating 0 and 6 are refused and 1 and 5 accepted. A 1000-character comment passes and a 1001-character one fails. |
| Models.ValidatedSubmissionConsented | models.py:37-41 | Every accepted submission has `consent == True`. |
| Models.ConsentRefusals | models.py:37-41 | A payload without `consent` is rejected with a "field required" error on `consent`. A payload whose `consent` reads as false is rejected with "consent must be true". |
| Models.ValidatedCommentsStripped | models.py:33-35 | An accepted comment is already stripped, so stripping it again changes nothing. |
| Models.StripCommentsIdempotent | models.py:33-35 | Stripping twice equals stripping once, and `None` stays `None`. |
| Models.AsDict | models.py:20 | `.dict()` has exactly the eight declared keys. So it supplies neither `source` nor `received_at` nor `ip` to the stored record. |
| Models.ValidateAsDictRoundTrip | models.py:7-16 | Validating the `.dict()` of a valid submission gives back that submission, provided the e-mail check leaves an already normalised address unchanged. |
| Models.DerivedKey | models.py:30 | The derived key is the e-mail followed by exactly ten characters, the hour stamp. |
| Models.ComputeSubmissionId | models.py:26-31 | A non-empty client id is returned unchanged. With `None` or `""`, the id is the 64-character hex digest of the derived key. |
| Models.NumericClientIdKept | models.py:26-27 | A `submission_id` sent as the number 42 is validated to the text "42", and `compute_submission_id` returns "42" as the id. |
| Models.DerivedKeyInjective | models.py:30-31 | Two derived keys are equal exactly when the addresses are equal and the instants fall in the same UTC hour. |
| Models.SubmissionIdPerHour | models.py:26-31 | Without a client id, the same submission gets the same id within one UTC hour, and the hashed keys differ across hours. |
| Models.ToSafeDict | models.py:19-24 | `to_safe_dict` keeps the keys of `.dict()` and every value except `submission_id`, `email` and `age`. Those become the resolved id, the digest of the address and the digest of `str(age)`. |
| Models.SafeDictHidesPii | models.py:22-23 | In the anonymised dict, `email` and `age` are hex digests that differ from the raw address and from the raw age text. |
| Models.DigestsDifferFromRaw | models.py:22-23 | No digest equals the address it replaces, which has an `@`. No digest equals the age text it replaces, which has at most three characters. |
| Models.StoredAgeReadsBack | models.py:47 | The age stored as text reads back through `int()` as the validated age. |
| Models.BuildStoredRecord | models.py:44-55 | A built record carries the given `received_at` and `ip`, and `source` is "other" when the dict has none. An integer age becomes its decimal text. A failed build reports at least one error. |
| Models.RecordOfSubmission | app.py:42-46 | Building the record from `.dict()` always succeeds. The record has the raw address, the age as decimal text, `source` "other" and the client's id or `None`. |
| Models.RecordOfSafeDict | models.py:44-55 | Building the record from `to_safe_dict()` always succeeds. The record has the two digests and the resolved id. |
| PyText.LeadingSpace | models.py:35 | The leading run that `strip` removes is all whitespace and is followed by a non-space or by the end. |
| PyText.Strip | models.py:35 | `strip()` returns a stripped string that is a slice of the input, with only whitespace cut from either side. |
| PyText.StripIsTheStrippedCore | models.py:35 | Any stripped slice surrounded only by whitespace is exactly what `strip()` returns. |
| PyText.StripIdempotent | models.py:35 | `strip()` applied twice equals `strip()` applied once. |
| Decimal.NatToDecimal | models.py:23 | `str(n)` for `n >= 0` is a non-empty digit string that denotes `n`, with no leading zero. |
| Decimal.IntToDecimal | models.py:23 | `str(n)` is the digits of `n`, preceded by a minus sign when `n` is negative. |
| Decimal.PadDecimal | models.py:30 | `%0wd` of a number below `10^w` is exactly `w` digits denoting it. |
| Decimal.ParseIntOfDecimal | models.py:10 | `int(str(n)) == n` for every integer whose text is within Python's length limit. |
| Clock.HourStamp | models.py:30 | `strftime('%Y%m%d%H')` of a valid instant is ten digits. |
| Clock.HourStampRoundTrip | models.py:30 | The hour stamp reads back as the instant's year, month, day and hour. |
| Clock.HourStampIdentifiesHour | models.py:30 | Two valid instants have the same hour stamp exactly when they share the UTC hour. |
| SurveyApp.ErrorEntries | app.py:40 | `ve.errors()` has one entry per field error, in the same order. Each entry has `loc`, a one-element list holding the field's key, plus the error's message, its type and the `limit_value` of its `ctx`. |
| SurveyApp.BackfillUserAgent | app.py:30-31 | An absent or empty `user_agent` becomes the `User-Agent` header, which may itself be absent. A non-empty one is kept. No other field changes, and validity is preserved. |
| SurveyApp.ResolveIp | app.py:45 | `ip` is the `X-Forwarded-For` header verbatim whenever it is present, even when empty. Otherwise it is the peer address. Failing both, it is `""`. |
| SurveyApp.Rejection | app.py:23-40 | A request is answered before the store step exactly when it is not accepted. It is accepted when its body is a mapping without a `__pydantic_self__` key whose fields all validate. That answer never changes the log and is never 201. |
| SurveyApp.StoreSubmission | app.py:42-47 | The store step always answers 201 and appends exactly one record, leaving the earlier entries as they were. |
| SurveyApp.Persist | app.py:47 | A built record is appended with 201. A record that failed to build escapes as an uncaught `ValidationError` and leaves the log alone. |
| SurveyApp.SubmitSurvey | app.py:21-48 | No body or a `null` body gives 400 `invalid_json`. A body that is not a mapping, or that has a `__pydantic_self__` key, raises `TypeError` at `SurveySubmission(**payload)`. That is the only escaping outcome. 201 happens exactly when the body validates, with one appended record and the prefix kept. Any other outcome leaves the log unchanged. |
| SurveyApp.ServeInOrder | app.py:47 | Over a sequence of requests, the log keeps every earlier entry and grows by exactly the number of accepted requests. |
| SurveyApp.AcceptedAppendsRecord | app.py:42-47 | An accepted request appends exactly one record with these values: the validated fields, the raw e-mail, the age as decimal text, `consent` true, `source` "other", the backfilled user agent, the client's id or `None`, the current instant and the resolved `ip`. |
| SurveyApp.StoredRecordKeepsRawPii | app.py:42-46 | As written, the stored `email` is the raw address, which is not a digest. The stored `age` is the raw age text, which reads back as the age. The stored id is the client's, or `None`. |
| SurveyApp.InvalidFieldsAre422 | app.py:39-40 | A payload with field errors gets 422 `validation_error` and an unchanged log. The detail lists an entry for every failing field, and every entry reports a field that fails. |
| SurveyApp.EntriesReportFailures | app.py:40 | The entries of a failed validation report exactly the fields that fail, with their messages and error types. |
| SurveyApp.RejectedReply | app.py:39-40 | A mapping that fails validation is answered 422 with the error entries, in order, and the same log. |
| SurveyApp.FieldErrorRejects | app.py:28 | One failing field is enough to reject the whole payload, and its error is among the reported ones. |
| SurveyApp.RejectionEntries | app.py:39-40 | Each field failure shows up as an entry of the 422 answer. |
| SurveyApp.MissingConsentIs422 | app.py:39-40 | A payload without `consent` gets 422 with the entry `loc` `["consent"]`, "field required", `value_error.missing`, and no `ctx`. |
| SurveyApp.FalseConsentIs422 | app.py:39-40 | `consent: false` gets 422 with the entry `loc` `["consent"]`, "consent must be true", `value_error`, and no `ctx`. |
| SurveyApp.AgeAboveRangeIs422 | app.py:39-40 | An integer age above 120 gets 422 with the entry `loc` `["age"]`, "ensure this value is less than or equal to 120", `value_error.number.not_le`, and `limit_value` 120. |
| SurveyApp.StoreSubmissionAnonymised | app.py:33 | The corrected store step also always answers 201 and appends exactly one record. |
| SurveyApp.BuildSafeRecord | app.py:42-46 | Building the stored record from `to_safe_dict()` never fails. |
| SurveyApp.SubmitSurveyAnonymised | app.py:21-48 | The corrected handler answers every request that is not accepted exactly as the original does. It answers 201 exactly when the body validates, and appends one record. |
| SurveyApp.AnonymisedRecordHidesPii | app.py:33 | With the corrected store step, the appended record holds the digest of the address and the digest of `str(age)`, neither equal to the raw value, plus the resolved submission id. |
| SurveyApp.AnonymisedStoreAppends | app.py:33 | The corrected store step appends the record built from `to_safe_dict()` of the backfilled submission. |
| SurveyApp.AnonymisedSameHourSameId | models.py:26-31 | With the corrected store step, one address submitted twice without a client id in the same UTC hour is stored under the same id. |
| SurveyApp.AlexValidates | models.py:7-16 | A concrete payload with a padded comment validates to the submission with the comment trimmed and no user agent or id. |
| SurveyApp.AlexCommentTrimmed | models.py:33-35 | The comment " great! " passes and is stored as "great!". |
| SurveyApp.AlexWithSelfKeyRaises | app.py:28 | The same payload with an extra `__pydantic_self__` key raises `TypeError`, because `BaseModel.__init__` then gets its first parameter twice. Nothing is stored. |
| SurveyApp.AlexStoredAsWritten | app.py:42-47 | As written, that payload is stored with "a@example.com", age "30" and no submission id. |
| SurveyApp.AlexStoredAnonymised | app.py:33 | With the corrected store step, the same payload is stored with the digests of the address and of "30", and with the id hashed from the address and the hour stamp. |

## Left out

- Flask routing, CORS, `app.run`, and the `/ping` and `/time` routes (app.py lines 1-20 and 49-84) are left out. They are transport and scaffolding, not survey logic.
- `append_json_line` is modelled as appending one record to a `seq`. File I/O, JSON encoding and the atomicity of concurrent appends are left out. `storage.py` is not part of this model.
- `request.get_json(silent=True)` is taken as already parsed: `None` for a body that is not JSON, otherwise the JSON value. A JSON `null` body also comes back as `None` and is answered 400.
- `SurveyApp.SubmitSurvey` reports the escaping `TypeError` as an outcome. It does not model Flask's 500 page for it.
- JSON numbers with a fraction or exponent are not modelled. `JsonData.Json` has integers only, so pydantic's handling of floats for `age` and `rating` is left out.
- Header names are looked up exactly, not case-insensitively as Flask's `Headers` does.
- Models.ValidateEmail: the `EmailStr` grammar and normalisation belong to a library. They are the parameter `emailStr`, and all that is assumed of an accepted address is that it contains `@`.
- Digest.Sha256Hex: SHA-256 and the UTF-8 encoding are a parameter. Only the 64-lower-case-hex shape of `hexdigest()` is assumed.
- Clock.HourStamp: `%Y` is modelled as four zero-padded digits, as CPython's own formatting gives on most platforms. glibc prints years below 1000 without padding. The hour stamp is not modelled for those years.
- Decimal.ParseInt: `int()` is modelled for ASCII digits only. The Unicode decimal digits Python also accepts are left out.
- PyText.Lower: modelled as ASCII lower-casing. This is exact for the comparisons made with the boolean words.
- Lone surrogates in strings are not modelled: a Dafny `char` is a Unicode scalar value.
- The handler reads the clock three times. `utcnow()` is read in `compute_submission_id`, reached through `to_safe_dict` at app.py:33. `now(timezone.utc)` is read at app.py:35, in a record that is then discarded. `now(timezone.utc)` is read again at app.py:44 for the stored `received_at`. The model uses one instant for all of them, so a request that straddles an hour boundary between the readings is not modelled.
- The `received_at`, `ip` and `user_agent` keys written into the `to_safe_dict()` result at app.py lines 35-37 are not modelled. That dict is discarded as written, and the corrected variant takes those values from the store step.
- The ISO formatting of `received_at` is not modelled. The record holds the instant itself.

Behaviours of the code worth knowing:

- `name` is not trimmed, so a name of spaces is accepted.
- An absent `consent` is reported as "field required", not as "consent must be true", although models.py:11 describes the field as "Must be true to accept". `_must_consent` never sees a missing value.
- An empty `X-Forwarded-For` header is used verbatim as `ip`.
- A body that is JSON but not a mapping is not answered with a 4xx status. `SurveySubmission(**payload)` raises `TypeError`, which the handler does not catch. The same happens for a mapping with a `__pydantic_self__` key.

## Findings

| source | as written | input that shows it | evidently intended | confidence | as-written member | corrected member |
|---|---|---|---|---|---|---|
| app.py:42-46 | The stored record is built from `submission.dict()`. The anonymised `to_safe_dict()` computed at line 33 is thrown away, so the raw e-mail, the raw age and the client's id (or `None`) are persisted. | `{"name": "Alex", "email": "a@example.com", "age": 30, "consent": true, "rating": 5, "comments": " great! "}` is stored with `email` "a@example.com", `age` "30" and no `submission_id` | store the digests and the resolved id: the stored model's own field comments say "already hashed" (models.py:46-47) | high; not executed | SurveyApp.StoredRecordKeepsRawPii | SurveyApp.AnonymisedRecordHidesPii |

`SurveyApp.SubmitSurvey` models the handler as written. `SurveyApp.SubmitSurveyAnonymised` is the corrected handler: it builds the record from `to_safe_dict()` and shares every other branch with the original. The worked example shows both: `SurveyApp.AlexStoredAsWritten` and `SurveyApp.AlexStoredAnonymised`.

=== FILE: app.dfy ===
/**
 * The `POST /v1/survey` handler, `submit_survey`, as a pure function of the
 * request, the current instant and the append-only log: it returns the
 * response (or the exception that escapes it) together with the new log.
 */
module SurveyApp {
  import opened Wrappers
  import opened JsonData
  import opened FieldCoercion
  import opened Models
  import Clock
  import Digest
  import Decimal

  const InvalidJsonDetail := "Body must be application/json"

  /** What the handler sees of one request. */
  datatype Request = Request(
    payload: Option<Json>,           // `request.get_json(silent=True)`
    headers: map<string, string>,    // header values by canonical name
    remoteAddr: Option<string>)      // `request.remote_addr`

  /** An exception that escapes the handler, to be rendered by Flask as a server error. */
  datatype Escaped = TypeError | UncaughtValidationError

  /**
   * One entry of `ve.errors()`: `loc` (a one-element tuple naming the field),
   * `msg`, `type`, and the `limit_value` of `ctx` when the error has one.
   */
  datatype ErrorEntry = ErrorEntry(loc: seq<string>, msg: string, code: string, limitValue: Option<int>)

  datatype Detail = Text(text: string) | Entries(entries: seq<ErrorEntry>)

  /** The JSON body of a response: `{"error": ..., "detail": ...}` or `{"status": "ok"}`. */
  datatype Body = ErrorBody(error: string, detail: Detail) | StatusOk

  datatype Outcome = Response(status: int, body: Body) | Raised(exception: Escaped)

  datatype Reply = Reply(outcome: Outcome, log: seq<StoredRecord>)

  const Created: Outcome := Response(201, StatusOk)
  const InvalidJson: Outcome := Response(400, ErrorBody("invalid_json", Text(InvalidJsonDetail)))

  /** The name of the first parameter of pydantic's `BaseModel.__init__`. */
  const SelfParameter := "__pydantic_self__"

  /**
   * A body that parsed to JSON but cannot be passed as `**payload`: it is not
   * a mapping, or it is one that also names `__init__`'s own first parameter,
   * which then receives two values. Either way `TypeError` is raised.
   */
  predicate RaisesTypeError(payload: Option<Json>) {
    payload.Some? && !payload.value.JNull? && (!payload.value.JObject? || SelfParameter in payload.value.members)
  }

  /** A body that `SurveySubmission(**payload)` receives as keyword arguments. */
  predicate IsKeywordArguments(payload: Option<Json>) {
    payload.Some? && payload.value.JObject? && SelfParameter !in payload.value.members
  }

  /** The body is passed as keyword arguments and its fields all validate. */
  predicate Accepts(payload: Option<Json>, emailStr: EmailValidator) {
    IsKeywordArguments(payload) && Validate(payload.value.members, emailStr).Success?
  }

  /** The entry `ve.errors()` holds for one field error. */
  function Entry(e: Violation): ErrorEntry {
    ErrorEntry([Key(e.loc)], Message(e.kind), TypeCode(e.kind), LimitValue(e.kind))
  }

  /**
   * `ve.errors()`: one entry per field error, in the same order, locating the
   * field by its key and carrying the error's message, type and limit.
   */
  function ErrorEntries(errors: seq<Violation>): (r: seq<ErrorEntry>)
    ensures |r| == |errors|
    ensures forall i :: 0 <= i < |errors| ==> r[i].loc == [Key(errors[i].loc)]
    ensures forall i :: 0 <= i < |errors| ==>
      r[i].msg == Message(errors[i].kind) && r[i].code == TypeCode(errors[i].kind)
    ensures forall i :: 0 <= i < |errors| ==> r[i].limitValue == LimitValue(errors[i].kind)
  {
    seq(|errors|, i requires 0 <= i < |errors| => Entry(errors[i]))
  }

  /**
   * A missing or empty `user_agent` is replaced by the `User-Agent` header,
   * which may itself be absent; a non-empty one is kept; nothing else changes.
   */
  function BackfillUserAgent(s: Submission, header: Option<string>): (r: Submission)
    ensures r == s.(userAgent := r.userAgent)
    ensures s.userAgent.None? || s.userAgent == Some("") ==> r.userAgent == header
    ensures s.userAgent.Some? && s.userAgent.value != "" ==> r == s
    ensures IsValid(r) <==> IsValid(s)
  {
    if s.userAgent.None? || s.userAgent.value == "" then s.(userAgent := header) else s
  }

  /**
   * `request.headers.get("X-Forwarded-For", request.remote_addr or "")`: the
   * forwarding header verbatim whenever present, even empty; otherwise the
   * peer address; otherwise the empty string.
   */
  function ResolveIp(headers: map<string, string>, remoteAddr: Option<string>): (ip: string)
    ensures "X-Forwarded-For" in headers ==> ip == headers["X-Forwarded-For"]
    ensures "X-Forwarded-For" !in headers && remoteAddr.Some? ==> ip == remoteAddr.value
    ensures "X-Forwarded-For" !in headers && remoteAddr.None? ==> ip == ""
  {
    Lookup(headers, "X-Forwarded-For").GetOr(remoteAddr.GetOr(""))
  }

  /**
   * Lines 30-31 and 42-47 for an accepted submission: backfill the user
   * agent, build the record from `submission.dict()`, append it. Building
   * the record happens outside the `try`, so a failure there would escape.
   */
  function StoreSubmission(submission: Submission, req: Request, now: Clock.UtcTime, log: seq<StoredRecord>): (r: Reply)
    ensures r.outcome == Created
    ensures |r.log| == |log| + 1 && r.log[..|log|] == log
  {
    var s := BackfillUserAgent(submission, Lookup(req.headers, "User-Agent"));
    var ip := ResolveIp(req.headers, req.remoteAddr);
    var built := BuildStoredRecord(AsDict(s), now, ip);
    RecordOfSubmission(s, now, ip);
    Persist(built, log)
  }

  /**
   * Line 47, with the record built at lines 42-46 outside the `try`: a
   * record that failed to build escapes, a built one is appended.
   */
  function Persist(built: Result<StoredRecord, seq<FieldError<string>>>, log: seq<StoredRecord>): (r: Reply)
    ensures built.Success? ==> r == Reply(Created, log + [built.value])
    ensures built.Failure? ==> r == Reply(Raised(UncaughtValidationError), log)
  {
    if built.Failure? then Reply(Raised(UncaughtValidationError), log) else Reply(Created, log + [built.value])
  }

  /**
   * `submit_survey` as written: a missing body is 400, a body that cannot be
   * passed as keyword arguments raises `TypeError`, field errors are 422, and an accepted submission is
   * stored as one new record at the end of the log and answered with 201.
   * The `to_safe_dict()` result the source computes is never stored, so it
   * does not appear here.
   */
  function SubmitSurvey(req: Request, now: Clock.UtcTime, log: seq<StoredRecord>, emailStr: EmailValidator): (r: Reply)
    ensures req.payload.None? || req.payload == Some(JNull) ==> r == Reply(InvalidJson, log)
    ensures RaisesTypeError(req.payload) ==> r == Reply(Raised(TypeError), log)
    ensures r.outcome == Created <==> Accepts(req.payload, emailStr)
    ensures r.outcome == Created ==> |r.log| == |log| + 1 && r.log[..|log|] == log
    ensures r.outcome != Created ==> r.log == log
    ensures r.outcome.Raised? ==> RaisesTypeError(req.payload)
  {
    match Rejection(req.payload, log, emailStr)
    case Some(reply) => reply
    case None => StoreSubmission(Validate(req.payload.value.members, emailStr).value, req, now, log)
  }

  /**
   * Lines 23-40: the answer to a request that is not accepted, or `None`
   * when the body is passed as keyword arguments and its fields all validate.
   */
  function Rejection(payload: Option<Json>, log: seq<StoredRecord>, emailStr: EmailValidator): (r: Option<Reply>)
    ensures r.None? <==> Accepts(payload, emailStr)
    ensures r.Some? ==> r.value.log == log && r.value.outcome != Created
  {
    match payload
    case None => Some(Reply(InvalidJson, log))
    case Some(body) =>
      if body.JNull? then
        Some(Reply(InvalidJson, log))
      else if !body.JObject? || SelfParameter in body.members then
        Some(Reply(Raised(TypeError), log))
      else
        match Validate(body.members, emailStr)
        case Failure(errors) =>
          Some(Reply(Response(422, ErrorBody("validation_error", Entries(ErrorEntries(errors)))), log))
        case Success(_) =>
          None
  }

  /**
   * Requests handled one after another, each against the log the previous
   * one left: the log only grows, its existing entries never change, and it
   * gains exactly one record per accepted request.
   */
  function ServeInOrder(reqs: seq<(Request, Clock.UtcTime)>, log: seq<StoredRecord>, emailStr: EmailValidator): (r: seq<StoredRecord>)
    ensures |r| == |log| + AcceptedCount(reqs, emailStr)
    ensures r[..|log|] == log
    decreases |reqs|
  {
    if reqs == [] then
      log
    else
      var next := SubmitSurvey(reqs[0].0, reqs[0].1, log, emailStr).log;
      var r := ServeInOrder(reqs[1..], next, emailStr);
      PrefixOfPrefix(r, next, log);
      r
  }

  /** A prefix of a prefix is a prefix. */
  lemma PrefixOfPrefix<T>(r: seq<T>, mid: seq<T>, pre: seq<T>)
    requires |mid| <= |r| && r[..|mid|] == mid
    requires |pre| <= |mid| && mid[..|pre|] == pre
    ensures r[..|pre|] == pre
  {
    assert r[..|pre|] == r[..|mid|][..|pre|];
  }

  /** How many of the requests are accepted. */
  function AcceptedCount(reqs: seq<(Request, Clock.UtcTime)>, emailStr: EmailValidator): nat {
    if reqs == [] then 0
    else (if Accepts(reqs[0].0.payload, emailStr) then 1 else 0) + AcceptedCount(reqs[1..], emailStr)
  }

  // ---------------------------------------------------------------------
  // The stored record
  // ---------------------------------------------------------------------

  /** The user agent that ends up stored: the payload's if non-empty, else the header's. */
  function StoredUserAgent(s: Submission, req: Request): Option<string> {
    if s.userAgent.None? || s.userAgent == Some("") then Lookup(req.headers, "User-Agent") else s.userAgent
  }

  /**
   * An accepted submission appends exactly this record: the validated fields
   * with the raw e-mail, the age as decimal text, the client's submission id
   * or `None`, `source` "other", the backfilled user agent, the current
   * instant and the resolved address.
   */
  lemma AcceptedAppendsRecord(req: Request, now: Clock.UtcTime, log: seq<StoredRecord>, emailStr: EmailValidator)
    requires Accepts(req.payload, emailStr)
    ensures var sub := Validate(req.payload.value.members, emailStr).value;
      SubmitSurvey(req, now, log, emailStr) == Reply(Created, log + [StoredRecord(
        sub.name, sub.email, Decimal.IntToDecimal(sub.age), true, sub.rating, sub.comments,
        DefaultSource, StoredUserAgent(sub, req), sub.submissionId, now,
        ResolveIp(req.headers, req.remoteAddr))])
  {
    var sub := Validate(req.payload.value.members, emailStr).value;
    ValidatedSubmissionConsented(req.payload.value.members, emailStr);
    var s := BackfillUserAgent(sub, Lookup(req.headers, "User-Agent"));
    RecordOfSubmission(s, now, ResolveIp(req.headers, req.remoteAddr));
  }

  /**
   * As written, the stored record keeps the raw address (it contains `@`, so
   * it is not a digest) and the raw age as decimal text, and a submission
   * without a client id is stored without the derived id.
   */
  lemma StoredRecordKeepsRawPii(req: Request, now: Clock.UtcTime, log: seq<StoredRecord>, emailStr: EmailValidator)
    requires Accepts(req.payload, emailStr)
    ensures var sub := Validate(req.payload.value.members, emailStr).value;
      var r := SubmitSurvey(req, now, log, emailStr);
      && |r.log| == |log| + 1
      && r.log[|log|].email == sub.email && '@' in r.log[|log|].email
      && !Digest.IsHexDigest(r.log[|log|].email)
      && r.log[|log|].age == Decimal.IntToDecimal(sub.age)
      && !Digest.IsHexDigest(r.log[|log|].age)
      && Decimal.ParseInt(r.log[|log|].age) == Some(sub.age)
      && r.log[|log|].submissionId == sub.submissionId
  {
    var sub := Validate(req.payload.value.members, emailStr).value;
    AcceptedAppendsRecord(req, now, log, emailStr);
    StoredAgeReadsBack(sub);
    Decimal.Pow10Values();
    Decimal.NatToDecimalLength(sub.age, 3);
  }

  /**
   * Field errors answer 422 with `validation_error` and leave the log alone;
   * the detail has one entry for every failing field and none for any other.
   */
  lemma InvalidFieldsAre422(req: Request, now: Clock.UtcTime, log: seq<StoredRecord>, emailStr: EmailValidator)
    requires IsKeywordArguments(req.payload)
    requires Validate(req.payload.value.members, emailStr).Failure?
    ensures var r := SubmitSurvey(req, now, log, emailStr);
      && r.log == log
      && r.outcome.Response? && r.outcome.status == 422
      && r.outcome.body.ErrorBody? && r.outcome.body.error == "validation_error"
      && r.outcome.body.detail.Entries?
      && ReportsExactlyFailures(req.payload.value.members, emailStr, r.outcome.body.detail.entries)
  {
    RejectedReply(req, now, log, emailStr);
    EntriesReportFailures(req.payload.value.members, emailStr);
  }

  /**
   * The entries are not empty, hold an entry for every field that fails,
   * and every entry is the report of a field that fails.
   */
  predicate ReportsExactlyFailures(fields: map<string, Json>, emailStr: EmailValidator, entries: seq<ErrorEntry>) {
    && entries != []
    && (forall f: Field :: FieldFailure(f, fields, emailStr).Some? ==>
          Entry(FieldError(f, FieldFailure(f, fields, emailStr).value))
            in entries)
    && (forall i :: 0 <= i < |entries| ==>
          LocatedField(entries[i]).Some? && FailsAs(fields, emailStr, LocatedField(entries[i]).value, entries[i]))
  }

  /** The entries of a failed validation report exactly the fields that fail. */
  lemma EntriesReportFailures(fields: map<string, Json>, emailStr: EmailValidator)
    requires Validate(fields, emailStr).Failure?
    ensures ReportsExactlyFailures(fields, emailStr, ErrorEntries(Validate(fields, emailStr).error))
  {
    var errors := Validate(fields, emailStr).error;
    forall f: Field | FieldFailure(f, fields, emailStr).Some?
      ensures FieldError(f, FieldFailure(f, fields, emailStr).value) in errors
    {
      ValidateErrorsAreFieldFailures(fields, emailStr, f, FieldFailure(f, fields, emailStr).value);
    }
    forall x | x in errors
      ensures FieldFailure(x.loc, fields, emailStr) == Some(x.kind)
    {
      ValidateErrorsAreFieldFailures(fields, emailStr, x.loc, x.kind);
    }
    EntriesOfFailures(fields, emailStr, errors);
  }

  /** Entries made from errors that are exactly the fields' failures report exactly those failures. */
  lemma EntriesOfFailures(fields: map<string, Json>, emailStr: EmailValidator, errors: seq<Violation>)
    requires errors != []
    requires forall f: Field :: FieldFailure(f, fields, emailStr).Some? ==>
      FieldError(f, FieldFailure(f, fields, emailStr).value) in errors
    requires forall x :: x in errors ==> FieldFailure(x.loc, fields, emailStr) == Some(x.kind)
    ensures ReportsExactlyFailures(fields, emailStr, ErrorEntries(errors))
  {
    var entries := ErrorEntries(errors);
    forall f: Field | FieldFailure(f, fields, emailStr).Some?
      ensures Entry(FieldError(f, FieldFailure(f, fields, emailStr).value)) in entries
    {
      EntryOfError(errors, FieldError(f, FieldFailure(f, fields, emailStr).value));
    }
    forall i | 0 <= i < |entries|
      ensures LocatedField(entries[i]) == Some(errors[i].loc)
      ensures FailsAs(fields, emailStr, errors[i].loc, entries[i])
    {
      assert errors[i] in errors;
      FieldNamedOfKey(errors[i].loc);
    }
  }

  /** The declared field an entry's one-element `loc` names, if it names one. */
  function LocatedField(e: ErrorEntry): Option<Field> {
    if |e.loc| == 1 then FieldNamed(e.loc[0]) else None
  }

  /** The entry reports field `f` failing with the error the field's own validators give. */
  predicate FailsAs(fields: map<string, Json>, emailStr: EmailValidator, f: Field, e: ErrorEntry) {
    match FieldFailure(f, fields, emailStr)
    case Some(k) => e == Entry(FieldError(f, k))
    case None => false
  }

  /** A mapping that fails validation is answered 422 with the errors' entries, in order. */
  lemma RejectedReply(req: Request, now: Clock.UtcTime, log: seq<StoredRecord>, emailStr: EmailValidator)
    requires IsKeywordArguments(req.payload)
    requires Validate(req.payload.value.members, emailStr).Failure?
    ensures SubmitSurvey(req, now, log, emailStr)
      == Reply(Response(422, ErrorBody("validation_error",
           Entries(ErrorEntries(Validate(req.payload.value.members, emailStr).error)))), log)
  {
  }

  /** A payload without `consent` is answered 422 with a "field required" entry for `consent`. */
  lemma MissingConsentIs422(req: Request, now: Clock.UtcTime, log: seq<StoredRecord>, emailStr: EmailValidator)
    requires IsKeywordArguments(req.payload)
    requires "consent" !in req.payload.value.members
    ensures var r := SubmitSurvey(req, now, log, emailStr);
      && r.log == log && r.outcome.Response? && r.outcome.status == 422
      && r.outcome.body.ErrorBody? && r.outcome.body.detail.Entries?
      && ErrorEntry(["consent"], "field required", "value_error.missing", None) in r.outcome.body.detail.entries
  {
    var fields := req.payload.value.members;
    assert ValidateConsent(Lookup(fields, "consent")) == Failure(Missing);
    assert FieldFailure(Consent, fields, emailStr) == Some(Missing);
    assert Message(Missing) == "field required";
    assert TypeCode(Missing) == "value_error.missing";
    RejectionEntries(req, now, log, emailStr, Consent, Missing);
  }

  /** `consent: false` is answered 422 with a "consent must be true" entry. */
  lemma FalseConsentIs422(req: Request, now: Clock.UtcTime, log: seq<StoredRecord>, emailStr: EmailValidator)
    requires IsKeywordArguments(req.payload)
    requires Lookup(req.payload.value.members, "consent") == Some(JBool(false))
    ensures var r := SubmitSurvey(req, now, log, emailStr);
      && r.log == log && r.outcome.Response? && r.outcome.status == 422
      && r.outcome.body.ErrorBody? && r.outcome.body.detail.Entries?
      && ErrorEntry(["consent"], "consent must be true", "value_error", None) in r.outcome.body.detail.entries
  {
    var fields := req.payload.value.members;
    assert ValidateConsent(Lookup(fields, "consent")) == Failure(Invalid(ConsentMessage));
    assert FieldFailure(Consent, fields, emailStr) == Some(Invalid(ConsentMessage));
    assert Message(Invalid(ConsentMessage)) == "consent must be true";
    assert TypeCode(Invalid(ConsentMessage)) == "value_error";
    RejectionEntries(req, now, log, emailStr, Consent, Invalid(ConsentMessage));
  }

  /** An integer age above 120 is answered 422 with an entry naming `age` and its upper bound. */
  lemma AgeAboveRangeIs422(req: Request, now: Clock.UtcTime, log: seq<StoredRecord>, emailStr: EmailValidator, age: int)
    requires IsKeywordArguments(req.payload)
    requires Lookup(req.payload.value.members, "age") == Some(JInt(age)) && age > AgeMax
    ensures var r := SubmitSurvey(req, now, log, emailStr);
      && r.log == log && r.outcome.Response? && r.outcome.status == 422
      && r.outcome.body.ErrorBody? && r.outcome.body.detail.Entries?
      && ErrorEntry(["age"], "ensure this value is less than or equal to 120", "value_error.number.not_le", Some(120))
           in r.outcome.body.detail.entries
  {
    var fields := req.payload.value.members;
    assert ValidateBoundedInt(Lookup(fields, "age"), AgeMin, AgeMax) == Failure(NotLe(AgeMax));
    assert FieldFailure(Age, fields, emailStr) == Some(NotLe(AgeMax));
    AgeCeilingEntry();
    RejectionEntries(req, now, log, emailStr, Age, NotLe(AgeMax));
  }

  /** The entry for an age above the range names the bound 120 and the `not_le` error type. */
  lemma AgeCeilingEntry()
    ensures Entry(FieldError(Age, NotLe(AgeMax)))
      == ErrorEntry(["age"], "ensure this value is less than or equal to 120", "value_error.number.not_le", Some(120))
  {
    var k := NotLe(AgeMax);
    assert Entry(FieldError(Age, k)) == ErrorEntry([Key(Age)], Message(k), TypeCode(k), LimitValue(k));
    assert Key(Age) == "age" && LimitValue(k) == Some(120);
    AgeCeilingMessage();
    AgeCeilingType();
  }

  lemma AgeCeilingMessage()
    ensures Message(NotLe(AgeMax)) == "ensure this value is less than or equal to 120"
  {
    assert Decimal.NatToDecimal(12) == "12";
    assert Decimal.IntToDecimal(120) == "120";
  }

  lemma AgeCeilingType()
    ensures TypeCode(NotLe(AgeMax)) == "value_error.number.not_le"
  {
  }

  /** A field that fails makes the whole payload fail, with that field's error among the errors. */
  lemma FieldErrorRejects(fields: map<string, Json>, emailStr: EmailValidator, f: Field)
    requires FieldFailure(f, fields, emailStr).Some?
    ensures Validate(fields, emailStr).Failure?
    ensures FieldError(f, FieldFailure(f, fields, emailStr).value) in Validate(fields, emailStr).error
  {
    ValidateAcceptsIffNoFieldFails(fields, emailStr);
    ValidateErrorsAreFieldFailures(fields, emailStr, f, FieldFailure(f, fields, emailStr).value);
  }

  /** A field error of the validation becomes an entry of the 422 answer. */
  lemma RejectionEntries(req: Request, now: Clock.UtcTime, log: seq<StoredRecord>, emailStr: EmailValidator, f: Field, k: ErrorKind)
    requires IsKeywordArguments(req.payload)
    requires FieldFailure(f, req.payload.value.members, emailStr) == Some(k)
    ensures var r := SubmitSurvey(req, now, log, emailStr);
      && r.log == log && r.outcome.Response? && r.outcome.status == 422
      && r.outcome.body.ErrorBody? && r.outcome.body.detail.Entries?
      && Entry(FieldError(f, k)) in r.outcome.body.detail.entries
  {
    FieldErrorRejects(req.payload.value.members, emailStr, f);
    RejectedReply(req, now, log, emailStr);
    EntryOfError(Validate(req.payload.value.members, emailStr).error, FieldError(f, k));
  }

  /** Every error has its entry among the entries. */
  lemma EntryOfError(errors: seq<Violation>, x: Violation)
    requires x in errors
    ensures Entry(x) in ErrorEntries(errors)
  {
    var i :| 0 <= i < |errors| && errors[i] == x;
    assert ErrorEntries(errors)[i] == Entry(x);
  }

  // ---------------------------------------------------------------------
  // The anonymised record the source computes and discards
  // ---------------------------------------------------------------------

  /**
   * The corrected store step: the record is built from `to_safe_dict()`
   * (digests of e-mail and age, resolved submission id) instead of from
   * `submission.dict()`; everything else is as in `StoreSubmission`.
   */
  function StoreSubmissionAnonymised(submission: Submission, req: Request, now: Clock.UtcTime, log: seq<StoredRecord>, sha256: Digest.Sha256Hex): (r: Reply)
    requires Clock.Valid(now)
    ensures r.outcome == Created
    ensures |r.log| == |log| + 1 && r.log[..|log|] == log
  {
    var s := BackfillUserAgent(submission, Lookup(req.headers, "User-Agent"));
    var ip := ResolveIp(req.headers, req.remoteAddr);
    Persist(BuildSafeRecord(s, now, sha256, ip), log)
  }

  /** `StoredSurveyRecord(**submission.to_safe_dict(), ...)`, which always builds. */
  function BuildSafeRecord(s: Submission, now: Clock.UtcTime, sha256: Digest.Sha256Hex, ip: string): (built: Result<StoredRecord, seq<FieldError<string>>>)
    requires Clock.Valid(now)
    ensures built.Success?
  {
    SafeRecordBuilds(s, now, sha256, ip);
    BuildStoredRecord(ToSafeDict(s, now, sha256), now, ip)
  }

  /** The record built from `to_safe_dict()` never fails validation. */
  lemma SafeRecordBuilds(s: Submission, now: Clock.UtcTime, sha256: Digest.Sha256Hex, ip: string)
    requires Clock.Valid(now)
    ensures BuildStoredRecord(ToSafeDict(s, now, sha256), now, ip).Success?
  {
    RecordOfSafeDict(s, now, sha256, ip);
  }

  /** `submit_survey` with the corrected store step; every other branch is unchanged. */
  function SubmitSurveyAnonymised(req: Request, now: Clock.UtcTime, log: seq<StoredRecord>, emailStr: EmailValidator, sha256: Digest.Sha256Hex): (r: Reply)
    requires Clock.Valid(now)
    ensures r.outcome != Created ==> r == SubmitSurvey(req, now, log, emailStr)
    ensures r.outcome == Created <==> Accepts(req.payload, emailStr)
    ensures r.outcome == Created ==> |r.log| == |log| + 1 && r.log[..|log|] == log
  {
    match Rejection(req.payload, log, emailStr)
    case Some(reply) => reply
    case None => StoreSubmissionAnonymised(Validate(req.payload.value.members, emailStr).value, req, now, log, sha256)
  }

  /**
   * With the corrected store step the record holds digests, never the raw
   * address or age, and the submission id is always resolved: the client's
   * if non-empty, the derived digest otherwise.
   */
  lemma AnonymisedRecordHidesPii(req: Request, now: Clock.UtcTime, log: seq<StoredRecord>, emailStr: EmailValidator, sha256: Digest.Sha256Hex)
    requires Clock.Valid(now)
    requires Accepts(req.payload, emailStr)
    ensures var sub := Validate(req.payload.value.members, emailStr).value;
      var r := SubmitSurveyAnonymised(req, now, log, emailStr, sha256);
      && r.log == log + [StoredRecord(
           sub.name, sha256(sub.email), sha256(Decimal.IntToDecimal(sub.age)), true, sub.rating, sub.comments,
           DefaultSource, StoredUserAgent(sub, req), Some(ComputeSubmissionId(sub, now, sha256)), now,
           ResolveIp(req.headers, req.remoteAddr))]
      && sha256(sub.email) != sub.email
      && sha256(Decimal.IntToDecimal(sub.age)) != Decimal.IntToDecimal(sub.age)
  {
    var fields := req.payload.value.members;
    var sub := Validate(fields, emailStr).value;
    ValidatedSubmissionConsented(fields, emailStr);
    AnonymisedStores(req, now, log, emailStr, sha256);
    AnonymisedStoreAppends(sub, req, now, log, sha256);
    DigestsDifferFromRaw(sub, sha256);
  }

  /** The corrected store step appends the record built from `to_safe_dict()`. */
  lemma AnonymisedStoreAppends(sub: Submission, req: Request, now: Clock.UtcTime, log: seq<StoredRecord>, sha256: Digest.Sha256Hex)
    requires Clock.Valid(now) && sub.consent
    ensures StoreSubmissionAnonymised(sub, req, now, log, sha256) == Reply(Created, log + [StoredRecord(
      sub.name, sha256(sub.email), sha256(Decimal.IntToDecimal(sub.age)), true, sub.rating, sub.comments,
      DefaultSource, StoredUserAgent(sub, req), Some(ComputeSubmissionId(sub, now, sha256)), now,
      ResolveIp(req.headers, req.remoteAddr))])
  {
    var s := BackfillUserAgent(sub, Lookup(req.headers, "User-Agent"));
    var ip := ResolveIp(req.headers, req.remoteAddr);
    assert ComputeSubmissionId(s, now, sha256) == ComputeSubmissionId(sub, now, sha256);
    RecordOfSafeDict(s, now, sha256, ip);
  }

  /** An accepted request reaches the corrected store step with its validated submission. */
  lemma AnonymisedStores(req: Request, now: Clock.UtcTime, log: seq<StoredRecord>, emailStr: EmailValidator, sha256: Digest.Sha256Hex)
    requires Clock.Valid(now)
    requires Accepts(req.payload, emailStr)
    ensures SubmitSurveyAnonymised(req, now, log, emailStr, sha256)
      == StoreSubmissionAnonymised(Validate(req.payload.value.members, emailStr).value, req, now, log, sha256)
  {
  }

  /**
   * With the corrected store step, the same address submitted twice without
   * a client id within one UTC hour is stored under the same id.
   */
  lemma AnonymisedSameHourSameId(
    req1: Request, t1: Clock.UtcTime, log1: seq<StoredRecord>,
    req2: Request, t2: Clock.UtcTime, log2: seq<StoredRecord>,
    emailStr: EmailValidator, sha256: Digest.Sha256Hex)
    requires Clock.Valid(t1) && Clock.Valid(t2) && Clock.SameHour(t1, t2)
    requires Accepts(req1.payload, emailStr) && Accepts(req2.payload, emailStr)
    requires var sub1 := Validate(req1.payload.value.members, emailStr).value;
      var sub2 := Validate(req2.payload.value.members, emailStr).value;
      sub1.email == sub2.email && !HasClientId(sub1) && !HasClientId(sub2)
    ensures SubmitSurveyAnonymised(req1, t1, log1, emailStr, sha256).log[|log1|].submissionId
         == SubmitSurveyAnonymised(req2, t2, log2, emailStr, sha256).log[|log2|].submissionId
  {
    var sub1 := Validate(req1.payload.value.members, emailStr).value;
    var sub2 := Validate(req2.payload.value.members, emailStr).value;
    AnonymisedRecordHidesPii(req1, t1, log1, emailStr, sha256);
    AnonymisedRecordHidesPii(req2, t2, log2, emailStr, sha256);
    Clock.HourStampIdentifiesHour(t1, t2);
  }

  // ---------------------------------------------------------------------
  // A concrete submission
  // ---------------------------------------------------------------------

  /** A well-formed payload whose comment carries surrounding blanks. */
  const AlexFields: map<string, Json> := map[
    "name" := JString("Alex"),
    "email" := JString("a@example.com"),
    "age" := JInt(30),
    "consent" := JBool(true),
    "rating" := JInt(5),
    "comments" := JString(" great! ")]

  /** What the payload validates to: the comment is trimmed, the optional fields are absent. */
  const AlexSubmission := Submission("Alex", "a@example.com", 30, true, 5, Some("great!"), None, None)

  /** The payload validates to `AlexSubmission` once the address is accepted as an e-mail. */
  lemma AlexValidates(emailStr: EmailValidator)
    requires emailStr("a@example.com") == Some("a@example.com")
    ensures Validate(AlexFields, emailStr) == Success(AlexSubmission)
  {
    AlexLookups();
    AlexValuesPass(emailStr);
    AlexCommentTrimmed();
    ValidateAcceptsPassingFields(AlexFields, emailStr, AlexSubmission);
  }

  /** The payload is passed as keyword arguments and accepted. */
  lemma AlexAccepted(emailStr: EmailValidator)
    requires emailStr("a@example.com") == Some("a@example.com")
    ensures Accepts(Some(JObject(AlexFields)), emailStr)
  {
    AlexLookups();
    AlexValidates(emailStr);
  }

  /**
   * The same payload with a `__pydantic_self__` key collides with the first
   * parameter of `BaseModel.__init__`: `TypeError` escapes, nothing is stored.
   */
  lemma AlexWithSelfKeyRaises(headers: map<string, string>, remoteAddr: Option<string>, now: Clock.UtcTime, log: seq<StoredRecord>, emailStr: EmailValidator)
    ensures SubmitSurvey(Request(Some(JObject(AlexFields[SelfParameter := JInt(1)])), headers, remoteAddr), now, log, emailStr)
      == Reply(Raised(TypeError), log)
  {
    assert RaisesTypeError(Some(JObject(AlexFields[SelfParameter := JInt(1)])));
  }

  /** The payload's value for each declared field. */
  lemma AlexLookups()
    ensures Lookup(AlexFields, "name") == Some(JString("Alex"))
    ensures Lookup(AlexFields, "email") == Some(JString("a@example.com"))
    ensures Lookup(AlexFields, "age") == Some(JInt(30))
    ensures Lookup(AlexFields, "consent") == Some(JBool(true))
    ensures Lookup(AlexFields, "rating") == Some(JInt(5))
    ensures Lookup(AlexFields, "comments") == Some(JString(" great! "))
    ensures Lookup(AlexFields, "user_agent") == None
    ensures Lookup(AlexFields, "submission_id") == None
    ensures SelfParameter !in AlexFields
  {
  }

  /** Each value of the payload passes its field's validation. */
  lemma AlexValuesPass(emailStr: EmailValidator)
    requires emailStr("a@example.com") == Some("a@example.com")
    ensures ValidateName(Some(JString("Alex"))) == Success("Alex")
    ensures ValidateEmail(Some(JString("a@example.com")), emailStr) == Success("a@example.com")
    ensures ValidateBoundedInt(Some(JInt(30)), AgeMin, AgeMax) == Success(30)
    ensures ValidateConsent(Some(JBool(true))) == Success(true)
    ensures ValidateBoundedInt(Some(JInt(5)), RatingMin, RatingMax) == Success(5)
    ensures ValidateOptionalStr(None) == Success(None)
  {
    assert BoolValue(JBool(true)) == Success(true);
  }

  /** The comment " great! " passes and is stripped to "great!". */
  lemma AlexCommentTrimmed()
    ensures ValidateComments(Some(JString(" great! "))) == Success(Some("great!"))
  {
    AlexCommentStripped();
  }

  lemma AlexCommentStripped()
    ensures PyText.Strip(" great! ") == "great!"
  {
    var s := " great! ";
    assert s[0] == ' ' && s[7] == ' ' && s[1..7] == "great!";
    assert PyText.IsSpace(' ') && !PyText.IsSpace('g') && !PyText.IsSpace('!');
    assert PyText.SpaceBetween(s, 0, 1) && PyText.SpaceBetween(s, 7, 8);
    assert PyText.IsStripped("great!");
    PyText.StripIsTheStrippedCore(s, 1, 7);
  }

  lemma AgeThirtyInDecimal()
    ensures Decimal.IntToDecimal(30) == "30"
  {
    assert Decimal.DigitChar(3) == '3' && Decimal.DigitChar(0) == '0';
    assert Decimal.NatToDecimal(3) == "3";
    assert Decimal.NatToDecimal(30) == Decimal.NatToDecimal(3) + [Decimal.DigitChar(0)];
  }

  /**
   * As written, the accepted payload is stored with its comment trimmed but
   * with the raw address and the raw age, and without a submission id.
   */
  lemma AlexStoredAsWritten(emailStr: EmailValidator, headers: map<string, string>, remoteAddr: Option<string>, now: Clock.UtcTime, log: seq<StoredRecord>)
    requires emailStr("a@example.com") == Some("a@example.com")
    ensures var r := SubmitSurvey(Request(Some(JObject(AlexFields)), headers, remoteAddr), now, log, emailStr);
      && r.outcome == Created && |r.log| == |log| + 1
      && r.log[|log|].comments == Some("great!")
      && r.log[|log|].email == "a@example.com"
      && r.log[|log|].age == "30"
      && r.log[|log|].submissionId == None
  {
    AlexValidates(emailStr);
    AlexAccepted(emailStr);
    AcceptedAppendsRecord(Request(Some(JObject(AlexFields)), headers, remoteAddr), now, log, emailStr);
    AgeThirtyInDecimal();
  }

  /**
   * With the corrected store step the same payload is stored with its comment
   * trimmed, digests in place of the address and the age, and the id derived
   * from the address and the hour.
   */
  lemma AlexStoredAnonymised(emailStr: EmailValidator, headers: map<string, string>, remoteAddr: Option<string>, now: Clock.UtcTime, log: seq<StoredRecord>, sha256: Digest.Sha256Hex)
    requires Clock.Valid(now)
    requires emailStr("a@example.com") == Some("a@example.com")
    ensures var r := SubmitSurveyAnonymised(Request(Some(JObject(AlexFields)), headers, remoteAddr), now, log, emailStr, sha256);
      && r.outcome == Created && |r.log| == |log| + 1
      && r.log[|log|].comments == Some("great!")
      && r.log[|log|].email == sha256("a@example.com") && Digest.IsHexDigest(r.log[|log|].email)
      && r.log[|log|].age == sha256("30") && Digest.IsHexDigest(r.log[|log|].age)
      && r.log[|log|].submissionId == Some(sha256("a@example.com" + Clock.HourStamp(now)))
  {
    var req := Request(Some(JObject(AlexFields)), headers, remoteAddr);
    AlexValidates(emailStr);
    AlexAccepted(emailStr);
    AnonymisedRecordHidesPii(req, now, log, emailStr, sha256);
    AgeThirtyInDecimal();
    AlexDerivedId(now, sha256);
    var r := SubmitSurveyAnonymised(req, now, log, emailStr, sha256);
    assert r.log[|log|] == StoredRecord(
      "Alex", sha256("a@example.com"), sha256("30"), true, 5, Some("great!"),
      DefaultSource, StoredUserAgent(AlexSubmission, req), Some(ComputeSubmissionId(AlexSubmission, now, sha256)), now,
      ResolveIp(req.headers, req.remoteAddr));
  }

  /** Without a client id, the submission's id is the digest of its address and the hour stamp. */
  lemma AlexDerivedId(now: Clock.UtcTime, sha256: Digest.Sha256Hex)
    requires Clock.Valid(now)
    ensures ComputeSubmissionId(AlexSubmission, now, sha256) == sha256("a@example.com" + Clock.HourStamp(now))
  {
    assert !HasClientId(AlexSubmission);
  }
}

=== FILE: clock.dfy ===
/**
 * UTC instants as Python's `datetime` represents them, and the
 * `strftime('%Y%m%d%H')` hour stamp used to derive submission ids.
 * The clock itself is never read: the current instant is a parameter.
 */
module Clock {
  import opened Decimal

  datatype UtcTime = UtcTime(year: int, month: int, day: int, hour: int, minute: int, second: int, microsecond: int)

  predicate IsLeapYear(year: int) {
    year % 4 == 0 && (year % 100 != 0 || year % 400 == 0)
  }

  function DaysInMonth(year: int, month: int): int
    requires 1 <= month <= 12
  {
    if month == 2 then (if IsLeapYear(year) then 29 else 28)
    else if month == 4 || month == 6 || month == 9 || month == 11 then 30
    else 31
  }

  /** The instants a `datetime` can hold (years 1 to 9999). */
  predicate Valid(t: UtcTime) {
    && 1 <= t.year <= 9999
    && 1 <= t.month <= 12
    && 1 <= t.day <= DaysInMonth(t.year, t.month)
    && 0 <= t.hour < 24
    && 0 <= t.minute < 60
    && 0 <= t.second < 60
    && 0 <= t.microsecond < 1000000
  }

  /** Both instants fall in the same UTC clock hour. */
  predicate SameHour(a: UtcTime, b: UtcTime) {
    a.year == b.year && a.month == b.month && a.day == b.day && a.hour == b.hour
  }

  /** `t.strftime('%Y%m%d%H')`: four-digit year, then two-digit month, day and hour. */
  function HourStamp(t: UtcTime): (r: string)
    requires Valid(t)
    ensures |r| == 10 && AllDigits(r)
  {
    Pow10Values();
    PadDecimal(t.year, 4) + PadDecimal(t.month, 2) + PadDecimal(t.day, 2) + PadDecimal(t.hour, 2)
  }

  /** Reads a ten-digit hour stamp back as (year, month, day, hour). */
  function ReadHourStamp(s: string): (int, int, int, int)
    requires |s| == 10 && AllDigits(s)
  {
    (DigitsValue(s[..4]), DigitsValue(s[4..6]), DigitsValue(s[6..8]), DigitsValue(s[8..]))
  }

  /** The hour stamp keeps the whole (year, month, day, hour) of the instant. */
  lemma HourStampRoundTrip(t: UtcTime)
    requires Valid(t)
    ensures ReadHourStamp(HourStamp(t)) == (t.year, t.month, t.day, t.hour)
  {
    StampOfFields(t.year, t.month, t.day, t.hour);
  }

  /** The padded fields, read back, give the numbers they were made from. */
  lemma StampOfFields(year: nat, month: nat, day: nat, hour: nat)
    requires year < 10000 && month < 100 && day < 100 && hour < 100
    ensures Pow10(4) == 10000 && Pow10(2) == 100
    ensures var s := PadDecimal(year, 4) + PadDecimal(month, 2) + PadDecimal(day, 2) + PadDecimal(hour, 2);
      |s| == 10 && AllDigits(s) && ReadHourStamp(s) == (year, month, day, hour)
  {
    Pow10Values();
    ReadFourParts(PadDecimal(year, 4), PadDecimal(month, 2), PadDecimal(day, 2), PadDecimal(hour, 2));
  }

  /** Reading a stamp made of four digit fields gives back the value of each field. */
  lemma ReadFourParts(y: string, m: string, d: string, h: string)
    requires |y| == 4 && |m| == 2 && |d| == 2 && |h| == 2
    requires AllDigits(y) && AllDigits(m) && AllDigits(d) && AllDigits(h)
    ensures AllDigits(y + m + d + h)
    ensures ReadHourStamp(y + m + d + h) == (DigitsValue(y), DigitsValue(m), DigitsValue(d), DigitsValue(h))
  {
    FourSlices(y, m, d, h);
    var s := y + m + d + h;
    forall k | 0 <= k < |s| ensures IsDigit(s[k]) {
      if k < 4 { assert s[k] == y[k]; }
      else if k < 6 { assert s[k] == m[k - 4]; }
      else if k < 8 { assert s[k] == d[k - 6]; }
      else { assert s[k] == h[k - 8]; }
    }
  }

  /** Each part of a four-part concatenation is the slice at its offset. */
  lemma FourSlices(a: string, b: string, c: string, d: string)
    ensures var s := a + b + c + d;
      && s[..|a|] == a && s[|a|..|a| + |b|] == b
      && s[|a| + |b|..|a| + |b| + |c|] == c && s[|a| + |b| + |c|..] == d
  {
  }

  /** Two instants have the same hour stamp exactly when they share the UTC hour. */
  lemma HourStampIdentifiesHour(a: UtcTime, b: UtcTime)
    requires Valid(a) && Valid(b)
    ensures HourStamp(a) == HourStamp(b) <==> SameHour(a, b)
  {
    if HourStamp(a) == HourStamp(b) {
      HourStampRoundTrip(a);
      HourStampRoundTrip(b);
    }
  }
}

=== FILE: coercion.dfy ===
/**
 * The pydantic (version 1) field machinery the two models are declared with:
 * how a present, absent or `null` value is treated, the type coercions of
 * `str`, `int` and `bool` fields, the length and range constraints, the
 * `EmailStr` type, and the error entries a `ValidationError` carries.
 */
module FieldCoercion {
  import opened Wrappers
  import opened JsonData
  import PyText
  import Decimal

  /** Why one field failed; the comment gives pydantic's error type. */
  datatype ErrorKind =
    | Missing                  // value_error.missing
    | NoneNotAllowed           // type_error.none.not_allowed
    | NotStr                   // type_error.str
    | NotInt                   // type_error.integer
    | NotBool                  // type_error.bool
    | TooShort(minLength: nat) // value_error.any_str.min_length
    | TooLong(maxLength: nat)  // value_error.any_str.max_length
    | NotGe(ge: int)           // value_error.number.not_ge
    | NotLe(le: int)           // value_error.number.not_le
    | NotEmail                 // value_error.email
    | Invalid(message: string) // value_error: a ValueError raised by a validator

  /** One entry of a validation error: the field (`loc`) and what went wrong with it. */
  datatype FieldError<L> = FieldError(loc: L, kind: ErrorKind)

  /**
   * The `ctx` of an error entry, `{"limit_value": n}`: present for the length
   * and range errors, whose message template is filled in from it.
   */
  function LimitValue(k: ErrorKind): (r: Option<int>)
    ensures r.Some? <==> k.TooShort? || k.TooLong? || k.NotGe? || k.NotLe?
    ensures k.TooShort? ==> r == Some(k.minLength)
    ensures k.TooLong? ==> r == Some(k.maxLength)
    ensures k.NotGe? ==> r == Some(k.ge)
    ensures k.NotLe? ==> r == Some(k.le)
  {
    match k
    case TooShort(n) => Some(n)
    case TooLong(n) => Some(n)
    case NotGe(n) => Some(n)
    case NotLe(n) => Some(n)
    case _ => None
  }

  /** The errors pydantic derives from `TypeError`; every other one derives from `ValueError`. */
  predicate IsTypeError(k: ErrorKind) {
    k.NoneNotAllowed? || k.NotStr? || k.NotInt? || k.NotBool?
  }

  /** `suffix` is how `s` ends. */
  predicate EndsWith(s: string, suffix: string) {
    |suffix| <= |s| && s[|s| - |suffix|..] == suffix
  }

  /**
   * `msg_template.format(**ctx)` for a template with one `{limit_value}`
   * placeholder: the text around it, with the limit written in decimal.
   */
  function Format(before: string, limit: int, after: string): (r: string)
    ensures EndsWith(r, Decimal.IntToDecimal(limit) + after)
  {
    var r := before + Decimal.IntToDecimal(limit) + after;
    assert r[|r| - |Decimal.IntToDecimal(limit) + after|..] == Decimal.IntToDecimal(limit) + after;
    r
  }

  /**
   * The human-readable `msg` of an error entry: a validator's own message
   * verbatim, and for the length and range errors a template that ends with
   * the limit of `ctx` (followed by " characters" for a length).
   */
  function Message(k: ErrorKind): (r: string)
    ensures k.Invalid? ==> r == k.message
    ensures (k.NotGe? || k.NotLe?) ==> EndsWith(r, Decimal.IntToDecimal(LimitValue(k).value))
    ensures (k.TooShort? || k.TooLong?) ==> EndsWith(r, Decimal.IntToDecimal(LimitValue(k).value) + " characters")
  {
    match k
    case Missing => "field required"
    case NoneNotAllowed => "none is not an allowed value"
    case NotStr => "str type expected"
    case NotInt => "value is not a valid integer"
    case NotBool => "value could not be parsed to a boolean"
    case TooShort(n) => Format("ensure this value has at least ", n, " characters")
    case TooLong(n) => Format("ensure this value has at most ", n, " characters")
    case NotGe(n) => assert Decimal.IntToDecimal(n) + "" == Decimal.IntToDecimal(n); Format("ensure this value is greater than or equal to ", n, "")
    case NotLe(n) => assert Decimal.IntToDecimal(n) + "" == Decimal.IntToDecimal(n); Format("ensure this value is less than or equal to ", n, "")
    case NotEmail => "value is not a valid email address"
    case Invalid(m) => m
  }

  /** The `code` of pydantic's error class; a bare `ValueError` has none. */
  function ErrorCode(k: ErrorKind): string {
    match k
    case Missing => "missing"
    case NoneNotAllowed => "none.not_allowed"
    case NotStr => "str"
    case NotInt => "integer"
    case NotBool => "bool"
    case TooShort(_) => "any_str.min_length"
    case TooLong(_) => "any_str.max_length"
    case NotGe(_) => "number.not_ge"
    case NotLe(_) => "number.not_le"
    case NotEmail => "email"
    case Invalid(_) => ""
  }

  /**
   * The machine-readable `type` of an error entry: `type_error` or
   * `value_error` after the exception class the error derives from, then a
   * dot and the error's own code when it has one.
   */
  function TypeCode(k: ErrorKind): (r: string)
    ensures IsTypeError(k) ==> "type_error." <= r
    ensures !IsTypeError(k) && !k.Invalid? ==> "value_error." <= r
    ensures k.Invalid? <==> r == "value_error"
  {
    var base := if IsTypeError(k) then "type_error" else "value_error";
    if k.Invalid? then base else base + "." + ErrorCode(k)
  }

  /**
   * An error entry's `type`, `msg` and `ctx` together tell which error it
   * reports: no two different errors share all three.
   */
  lemma EntryTextsIdentifyError(a: ErrorKind, b: ErrorKind)
    requires TypeCode(a) == TypeCode(b) && Message(a) == Message(b) && LimitValue(a) == LimitValue(b)
    ensures a == b
  {
  }

  /** The error entries of one field's outcome: none, or one naming the field. */
  function Report<L, T>(loc: L, r: Result<T, ErrorKind>): (errs: seq<FieldError<L>>)
    ensures r.Success? <==> errs == []
    ensures r.Failure? ==> errs == [FieldError(loc, r.error)]
  {
    match r
    case Success(_) => []
    case Failure(k) => [FieldError(loc, k)]
  }

  /** An error is reported for a field exactly when that field's outcome is that error. */
  lemma InReport<L, T>(x: FieldError<L>, loc: L, r: Result<T, ErrorKind>)
    ensures x in Report(loc, r) <==> x.loc == loc && r == Failure(x.kind)
  {
  }

  /** A required field: absent is "field required", `null` is "none is not an allowed value". */
  function Required(v: Option<Json>): (r: Result<Json, ErrorKind>)
    ensures v.None? ==> r == Failure(Missing)
    ensures v == Some(JNull) ==> r == Failure(NoneNotAllowed)
    ensures v.Some? && !v.value.JNull? ==> r == Success(v.value)
  {
    match v
    case None => Failure(Missing)
    case Some(JNull) => Failure(NoneNotAllowed)
    case Some(j) => Success(j)
  }

  /** `str_validator`: strings pass, integers and booleans become their `str()`, the rest fail. */
  function StrValue(j: Json): (r: Result<string, ErrorKind>)
    ensures j.JString? ==> r == Success(j.s)
    ensures j.JInt? ==> r == Success(Decimal.IntToDecimal(j.i))
    ensures j.JBool? ==> r == Success(if j.b then "True" else "False")
    ensures r.Failure? <==> (j.JNull? || j.JArray? || j.JObject?)
    ensures r.Failure? ==> r.error == NotStr
  {
    match j
    case JString(s) => Success(s)
    case JInt(i) => Success(Decimal.IntToDecimal(i))
    case JBool(b) => Success(if b then "True" else "False")
    case _ => Failure(NotStr)
  }

  /** `int_validator`: integers pass, booleans become 1 or 0, strings go through `int()`. */
  function IntValue(j: Json): (r: Result<int, ErrorKind>)
    ensures j.JInt? ==> r == Success(j.i)
    ensures j.JBool? ==> r == Success(if j.b then 1 else 0)
    ensures j.JString? ==> (r.Success? <==> Decimal.ParseInt(j.s).Some?)
    ensures j.JString? && r.Success? ==> r.value == Decimal.ParseInt(j.s).value
    ensures j.JString? && r.Failure? ==> r.error == NotInt
    ensures j.JNull? || j.JArray? || j.JObject? ==> r == Failure(NotInt)
  {
    match j
    case JInt(i) => Success(i)
    case JBool(b) => Success(if b then 1 else 0)
    case JString(s) =>
      (match Decimal.ParseInt(s)
       case Some(i) => Success(i)
       case None => Failure(NotInt))
    case _ => Failure(NotInt)
  }

  /** The strings `bool_validator` reads as true or false (after lower-casing). */
  const TrueWords: set<string> := {"1", "on", "t", "true", "y", "yes"}
  const FalseWords: set<string> := {"0", "off", "f", "false", "n", "no"}

  /** `bool_validator`: booleans pass; 1/0 and the listed words are read; the rest fail. */
  function BoolValue(j: Json): (r: Result<bool, ErrorKind>)
    ensures j.JBool? ==> r == Success(j.b)
    ensures r == Success(true) <==> (j == JBool(true) || j == JInt(1) || (j.JString? && PyText.Lower(j.s) in TrueWords))
    ensures r == Success(false) <==> (j == JBool(false) || j == JInt(0) || (j.JString? && PyText.Lower(j.s) in FalseWords))
  {
    match j
    case JBool(b) => Success(b)
    case JInt(i) => if i == 1 then Success(true) else if i == 0 then Success(false) else Failure(NotBool)
    case JString(s) =>
      var w := PyText.Lower(s);
      if w in TrueWords then Success(true) else if w in FalseWords then Success(false) else Failure(NotBool)
    case _ => Failure(NotBool)
  }

  /** `constr_length_validator`: the length must lie in [minLength, maxLength]. */
  function CheckLength(s: string, minLength: nat, maxLength: nat): (r: Result<string, ErrorKind>)
    ensures r.Success? <==> minLength <= |s| <= maxLength
    ensures r.Success? ==> r.value == s
    ensures |s| < minLength ==> r == Failure(TooShort(minLength))
    ensures minLength <= |s| && maxLength < |s| ==> r == Failure(TooLong(maxLength))
  {
    if |s| < minLength then Failure(TooShort(minLength))
    else if |s| > maxLength then Failure(TooLong(maxLength))
    else Success(s)
  }

  /** `number_size_validator` with `ge` and `le`: the value must lie in [ge, le]. */
  function CheckRange(n: int, ge: int, le: int): (r: Result<int, ErrorKind>)
    ensures r.Success? <==> ge <= n <= le
    ensures r.Success? ==> r.value == n
    ensures n < ge ==> r == Failure(NotGe(ge))
    ensures ge <= n && le < n ==> r == Failure(NotLe(le))
  {
    if n < ge then Failure(NotGe(ge))
    else if n > le then Failure(NotLe(le))
    else Success(n)
  }

  /**
   * `EmailStr`'s check: the normalised address, or `None` when the string is
   * not an address. The address grammar belongs to a library outside this
   * model; all that is assumed is that an accepted address contains `@`.
   */
  type EmailValidator = f: string -> Option<string> | forall s :: f(s).Some? ==> '@' in f(s).value
    witness RejectAll

  const RejectAll: string -> Option<string> := (s: string) => None
}

=== FILE: decimal.dfy ===
/**
 * Decimal text for integers: Python's `str(int)`, the zero-padded numeric
 * fields of `strftime`, and Python's `int(str)`, which pydantic applies when
 * a string arrives for an integer field.
 */
module Decimal {
  import opened Wrappers
  import PyText

  predicate IsDigit(c: char) {
    '0' <= c <= '9'
  }

  predicate AllDigits(s: string) {
    forall k :: 0 <= k < |s| ==> IsDigit(s[k])
  }

  function DigitChar(d: nat): (c: char)
    requires d < 10
    ensures IsDigit(c)
  {
    ('0' as int + d) as char
  }

  function DigitValue(c: char): (d: nat)
    requires IsDigit(c)
    ensures d < 10 && DigitChar(d) == c
  {
    c as int - '0' as int
  }

  function Pow10(n: nat): (p: nat)
    ensures p >= 1
  {
    if n == 0 then 1 else 10 * Pow10(n - 1)
  }

  /** The number a string of decimal digits denotes; leading zeros are allowed. */
  function DigitsValue(s: string): nat
    requires AllDigits(s)
  {
    if s == [] then 0 else 10 * DigitsValue(s[..|s| - 1]) + DigitValue(s[|s| - 1])
  }

  /** `str(n)` for `n >= 0`: the shortest digit string denoting `n`. */
  function NatToDecimal(n: nat): (r: string)
    ensures 1 <= |r| && AllDigits(r)
    ensures DigitsValue(r) == n
    ensures r[0] == '0' ==> r == "0"
    decreases n
  {
    if n < 10 then
      [DigitChar(n)]
    else
      var r := NatToDecimal(n / 10) + [DigitChar(n % 10)];
      assert r[..|r| - 1] == NatToDecimal(n / 10);
      r
  }

  /** The powers of ten the fixed-width formats use. */
  lemma Pow10Values()
    ensures Pow10(1) == 10 && Pow10(2) == 100 && Pow10(3) == 1000 && Pow10(4) == 10000
  {
  }

  /** A number below `10^k` (k >= 1) takes at most `k` digits. */
  lemma {:induction false} NatToDecimalLength(n: nat, k: nat)
    requires 1 <= k && n < Pow10(k)
    ensures |NatToDecimal(n)| <= k
  {
    if n >= 10 {
      assert k >= 2;
      NatToDecimalLength(n / 10, k - 1);
    }
  }

  /** `str(n)`: a minus sign for negative numbers, then the digits of `|n|`. */
  function IntToDecimal(n: int): (r: string)
    ensures 1 <= |r|
    ensures n >= 0 ==> AllDigits(r) && DigitsValue(r) == n
    ensures n < 0 ==> r[0] == '-' && AllDigits(r[1..]) && DigitsValue(r[1..]) == -n
  {
    if n < 0 then
      var r := "-" + NatToDecimal(-n);
      assert r[1..] == NatToDecimal(-n);
      r
    else
      NatToDecimal(n)
  }

  /** `%0<width>d` for `0 <= n < 10^width`: exactly `width` digits denoting `n`. */
  function PadDecimal(n: nat, width: nat): (r: string)
    requires n < Pow10(width)
    ensures |r| == width && AllDigits(r)
    ensures DigitsValue(r) == n
    decreases width
  {
    if width == 0 then
      []
    else
      var r := PadDecimal(n / 10, width - 1) + [DigitChar(n % 10)];
      assert r[..|r| - 1] == PadDecimal(n / 10, width - 1);
      r
  }

  /** Python's limit on the length of a string `int()` will convert (pydantic checks it first). */
  const MaxStrInt := 4300

  /** Decimal digits with single underscores between them, as `int()` accepts. */
  predicate IsDigitGroups(s: string) {
    && |s| >= 1 && IsDigit(s[0]) && IsDigit(s[|s| - 1])
    && (forall k :: 0 <= k < |s| ==> IsDigit(s[k]) || s[k] == '_')
    && (forall k :: 0 <= k < |s| - 1 ==> !UnderscorePair(s, k))
  }

  /** Two underscores in a row at `k`. */
  predicate UnderscorePair(s: string, k: int)
    requires 0 <= k < |s| - 1
  {
    s[k] == '_' && s[k + 1] == '_'
  }

  function DropUnderscores(s: string): (r: string)
    requires forall k :: 0 <= k < |s| ==> IsDigit(s[k]) || s[k] == '_'
    ensures AllDigits(r)
    ensures |r| <= |s|
    ensures forall c :: c != '_' ==> multiset(r)[c] == multiset(s)[c]
  {
    if s == [] then
      []
    else
      var r := (if s[0] == '_' then [] else [s[0]]) + DropUnderscores(s[1..]);
      assert s == [s[0]] + s[1..];
      r
  }

  lemma {:induction false} DropUnderscoresOfDigits(s: string)
    requires AllDigits(s)
    ensures DropUnderscores(s) == s
  {
    if s != [] {
      DropUnderscoresOfDigits(s[1..]);
    }
  }

  /**
   * The ASCII information separators U+001C to U+001F. `str.isspace()` holds
   * for them, but `int()` skips only the whitespace of C's `isspace` among
   * ASCII characters, so a string holding one of them never converts.
   */
  predicate IsInfoSeparator(c: char) {
    '\U{1C}' <= c <= '\U{1F}'
  }

  /** `s` holds an information separator somewhere. */
  predicate HasInfoSeparator(s: string) {
    exists k :: 0 <= k < |s| && IsInfoSeparator(s[k])
  }

  /** A string of digits holds no information separator. */
  lemma DigitsHaveNoSeparator(s: string)
    requires AllDigits(s)
    ensures !HasInfoSeparator(s)
  {
    forall k | 0 <= k < |s| ensures !IsInfoSeparator(s[k]) { assert IsDigit(s[k]); }
  }

  /**
   * `int(s)` on a string (base 10): surrounding whitespace is ignored, an
   * optional sign, then digit groups; `None` stands for the `ValueError`.
   * Strings longer than `MaxStrInt` are refused before conversion. The
   * whitespace skipped is `str.isspace()` without the information separators.
   */
  function ParseInt(s: string): (r: Option<int>)
    ensures r.Some? ==> |s| <= MaxStrInt
    ensures r.Some? ==> !HasInfoSeparator(s)
    ensures r.Some? ==> var t := PyText.Strip(s); |t| >= 1 && (IsDigit(t[0]) || t[0] == '-' || t[0] == '+')
    ensures r.Some? ==> var t := PyText.Strip(s);
      var signed := t[0] == '-' || t[0] == '+';
      IsDigitGroups(if signed then t[1..] else t)
    ensures r.Some? <==> |s| <= MaxStrInt && !HasInfoSeparator(s) && IsDigitGroups(Unsigned(PyText.Strip(s)))
    ensures r.Some? ==> var t := PyText.Strip(s);
      r.value == SignOf(t) * DigitsValue(DropUnderscores(Unsigned(t)))
  {
    if |s| > MaxStrInt || HasInfoSeparator(s) then None else ParseSigned(PyText.Strip(s))
  }

  /** The text after an optional leading sign. */
  function Unsigned(t: string): (u: string)
    ensures |t| > 0 && (t[0] == '-' || t[0] == '+') ==> t == [t[0]] + u
    ensures !(|t| > 0 && (t[0] == '-' || t[0] == '+')) ==> u == t
  {
    if |t| > 0 && (t[0] == '-' || t[0] == '+') then t[1..] else t
  }

  /** -1 when the text starts with a minus sign, 1 otherwise. */
  function SignOf(t: string): (g: int)
    ensures g == -1 || g == 1
    ensures g == -1 <==> |t| > 0 && t[0] == '-'
  {
    if |t| > 0 && t[0] == '-' then -1 else 1
  }

  /** The conversion once the whitespace is gone: an optional sign, then digit groups. */
  function ParseSigned(t: string): (r: Option<int>)
    ensures r.Some? ==> |t| >= 1 && (IsDigit(t[0]) || t[0] == '-' || t[0] == '+')
    ensures r.Some? ==> var signed := t[0] == '-' || t[0] == '+';
      IsDigitGroups(if signed then t[1..] else t)
    ensures r.Some? <==> IsDigitGroups(Unsigned(t))
    ensures r.Some? ==> r.value == SignOf(t) * DigitsValue(DropUnderscores(Unsigned(t)))
  {
    var signed := |t| > 0 && (t[0] == '-' || t[0] == '+');
    var body := if signed then t[1..] else t;
    if IsDigitGroups(body) then
      var v: int := DigitsValue(DropUnderscores(body));
      Some(if signed && t[0] == '-' then -v else v)
    else
      None
  }

  /** `int(str(n)) == n` whenever `str(n)` is within the length limit. */
  lemma ParseIntOfDecimal(n: int)
    requires |IntToDecimal(n)| <= MaxStrInt
    ensures ParseInt(IntToDecimal(n)) == Some(n)
  {
    var s := IntToDecimal(n);
    DecimalIsStripped(n);
    if n < 0 {
      ParseIntOfSignedDigits(s);
    } else {
      ParseIntOfDigits(s);
    }
  }

  /** `str(n)` has no surrounding whitespace. */
  lemma DecimalIsStripped(n: int)
    ensures PyText.Strip(IntToDecimal(n)) == IntToDecimal(n)
  {
    var s := IntToDecimal(n);
    assert !PyText.IsSpace(s[0]) && !PyText.IsSpace(s[|s| - 1]) by {
      if n >= 0 { assert IsDigit(s[|s| - 1]); } else { assert s[1..][|s| - 2] == s[|s| - 1]; }
    }
    PyText.StripOfStripped(s);
  }

  /** Plain digits without whitespace convert to the number they denote. */
  lemma ParseIntOfDigits(s: string)
    requires 1 <= |s| <= MaxStrInt && AllDigits(s) && PyText.Strip(s) == s
    ensures ParseInt(s) == Some(DigitsValue(s))
  {
    DigitsHaveNoSeparator(s);
    ParseSignedOfDigits(s);
  }

  /** Digits without a sign convert to the number they denote. */
  lemma ParseSignedOfDigits(s: string)
    requires 1 <= |s| && AllDigits(s)
    ensures ParseSigned(s) == Some(DigitsValue(s))
  {
    DigitsAreDigitGroups(s);
    DropUnderscoresOfDigits(s);
    assert IsDigit(s[0]);
  }

  /** Plain digits are digit groups without underscores. */
  lemma DigitsAreDigitGroups(s: string)
    requires 1 <= |s| && AllDigits(s)
    ensures IsDigitGroups(s)
  {
    forall k | 0 <= k < |s| - 1 ensures !UnderscorePair(s, k) { assert IsDigit(s[k]); }
  }

  /** A minus sign then digits, without whitespace, converts to the negated number. */
  lemma ParseIntOfSignedDigits(s: string)
    requires 2 <= |s| <= MaxStrInt && s[0] == '-' && AllDigits(s[1..]) && PyText.Strip(s) == s
    ensures ParseInt(s) == Some(-(DigitsValue(s[1..]) as int))
  {
    DigitsAreDigitGroups(s[1..]);
    assert !HasInfoSeparator(s) by {
      DigitsHaveNoSeparator(s[1..]);
      forall k | 0 <= k < |s| ensures !IsInfoSeparator(s[k]) {
        if k > 0 { assert s[k] == s[1..][k - 1]; }
      }
    }
    DropUnderscoresOfDigits(s[1..]);
  }

  /** A tab before and a blank after the digits are skipped: `int("\t30 ") == 30`. */
  lemma IntSkipsSpace()
    ensures ParseInt("\t30 ") == Some(30)
  {
    var s := "\t30 ";
    TabThirtyBlankStrips();
    assert !HasInfoSeparator(s);
    ThirtyDigits();
  }

  lemma TabThirtyBlankStrips()
    ensures PyText.Strip("\t30 ") == "30"
  {
    var s := "\t30 ";
    assert s[1..3] == "30";
    assert PyText.IsSpace(s[0]) && PyText.IsSpace(s[3]) && !PyText.IsSpace('3') && !PyText.IsSpace('0');
    assert PyText.SpaceBetween(s, 0, 1) && PyText.SpaceBetween(s, 3, 4);
    PyText.StripIsTheStrippedCore(s, 1, 3);
  }

  lemma ThirtyDigits()
    ensures IsDigitGroups("30") && DropUnderscores("30") == "30" && DigitsValue("30") == 30
  {
    DropUnderscoresOfDigits("30");
    assert "30"[..1] == "3";
  }

  /** Underscores between digit groups are dropped: `int("1_000") == 1000`. */
  lemma IntDropsUnderscores()
    ensures ParseInt("1_000") == Some(1000)
  {
    var s := "1_000";
    OneThousandIsPlain();
    PyText.StripOfStripped(s);
    OneThousandSigned();
  }

  lemma OneThousandIsPlain()
    ensures !HasInfoSeparator("1_000") && PyText.IsStripped("1_000")
  {
    var s := "1_000";
    forall k | 0 <= k < |s| ensures !IsInfoSeparator(s[k]) { }
  }

  lemma OneThousandSigned()
    ensures ParseSigned("1_000") == Some(1000)
  {
    var s := "1_000";
    assert IsDigitGroups(s) by {
      forall k | 0 <= k < |s| - 1 ensures !UnderscorePair(s, k) { }
    }
    assert Unsigned(s) == s;
    OneThousandDigits();
  }

  lemma OneThousandDigits()
    ensures DropUnderscores("1_000") == "1000" && DigitsValue("1000") == 1000
  {
    OneThousandDropped();
    OneThousandValue();
  }

  lemma OneThousandDropped()
    ensures DropUnderscores("1_000") == "1000"
  {
    DropUnderscoresOfDigits("000");
    DropUnderscoresCons('_', "000");
    assert ['_'] + "000" == "_000";
    DropUnderscoresCons('1', "_000");
    assert ['1'] + "_000" == "1_000";
  }

  /** Dropping underscores works one leading character at a time. */
  lemma DropUnderscoresCons(c: char, t: string)
    requires IsDigit(c) || c == '_'
    requires forall k :: 0 <= k < |t| ==> IsDigit(t[k]) || t[k] == '_'
    ensures DropUnderscores([c] + t) == (if c == '_' then [] else [c]) + DropUnderscores(t)
  {
    assert ([c] + t)[1..] == t;
  }

  lemma OneThousandValue()
    ensures DigitsValue("1000") == 1000
  {
    assert "1000"[..3] == "100";
    assert "100"[..2] == "10";
    assert "10"[..1] == "1";
  }

  /** A file separator (U+001C) before the digits is not skipped: `int("\x1c30")` raises. */
  lemma IntRejectsSeparator()
    ensures ParseInt("\U{1C}30") == None
  {
    var u := "\U{1C}30";
    assert IsInfoSeparator(u[0]);
  }
}

=== FILE: digest.dfy ===
/**
 * The one-way digest used for anonymisation and for derived submission ids:
 * `hashlib.sha256(text.encode()).hexdigest()`, SHA-256 (FIPS 180-4) of the
 * UTF-8 bytes of a string, rendered as lower-case hexadecimal. The hash is
 * not computed here: it is a parameter of the model, and all that is assumed
 * of it is the shape of its output.
 */
module Digest {

  predicate IsLowerHexChar(c: char) {
    '0' <= c <= '9' || 'a' <= c <= 'f'
  }

  /** 64 lower-case hexadecimal characters: the text of a SHA-256 `hexdigest()`. */
  predicate IsHexDigest(s: string) {
    |s| == 64 && forall k :: 0 <= k < |s| ==> IsLowerHexChar(s[k])
  }

  type HexDigest = s: string | IsHexDigest(s) witness seq(64, _ => '0')

  /** A SHA-256 hex digester of strings. */
  type Sha256Hex = string -> HexDigest

  /** A digest never equals text containing `@`, such as an e-mail address. */
  lemma DigestIsNotAnAddress(d: HexDigest, text: string)
    requires '@' in text
    ensures d != text
  {
  }
}

=== FILE: json_data.dfy ===
/**
 * Parsed JSON values, as Python's `json` module hands them to the endpoint:
 * objects become dicts (the last of repeated keys wins) and `null` becomes
 * `None`. The same datatype stands for the plain Python values (`str`, `int`,
 * `bool`, `None`) held by a model's `.dict()`.
 */
module JsonData {
  import opened Wrappers

  datatype Json =
    | JNull
    | JBool(b: bool)
    | JInt(i: int)
    | JString(s: string)
    | JArray(items: seq<Json>)
    | JObject(members: map<string, Json>)

  /** `d.get(key)`: the value stored under `key`, if any (also `request.headers.get(name)`). */
  function Lookup<V>(d: map<string, V>, key: string): (r: Option<V>)
    ensures r.Some? <==> key in d
    ensures r.Some? ==> r.value == d[key]
  {
    if key in d then Some(d[key]) else None
  }

  /** The Python value of an optional string: the string itself or `None`. */
  function FromOptional(o: Option<string>): (j: Json)
    ensures o.None? <==> j.JNull?
    ensures o.Some? ==> j == JString(o.value)
  {
    match o
    case Some(v) => JString(v)
    case None => JNull
  }
}

=== FILE: models.dfy ===
/**
 * The two pydantic models of the survey service: `SurveySubmission`, the
 * validated inbound payload with its anonymising helpers, and
 * `StoredSurveyRecord`, the shape of one persisted log entry.
 */
module Models {
  import opened Wrappers
  import opened JsonData
  import opened FieldCoercion
  import PyText
  import Decimal
  import Digest
  import Clock

  const NameMinLength := 1
  const NameMaxLength := 100
  const AgeMin := 13
  const AgeMax := 120
  const RatingMin := 1
  const RatingMax := 5
  const CommentsMaxLength := 1000
  const ConsentMessage := "consent must be true"
  const DefaultSource := "other"

  /** The declared fields of `SurveySubmission`. */
  datatype Field = Name | Email | Age | Consent | Rating | Comments | UserAgent | SubmissionId

  /** The payload key of a field, which is also its `loc` in an error entry. */
  function Key(f: Field): string {
    match f
    case Name => "name"
    case Email => "email"
    case Age => "age"
    case Consent => "consent"
    case Rating => "rating"
    case Comments => "comments"
    case UserAgent => "user_agent"
    case SubmissionId => "submission_id"
  }

  /** The field a payload key or error `loc` names, if any. */
  function FieldNamed(key: string): (r: Option<Field>)
    ensures r.Some? ==> Key(r.value) == key
  {
    if key == "name" then Some(Name)
    else if key == "email" then Some(Email)
    else if key == "age" then Some(Age)
    else if key == "consent" then Some(Consent)
    else if key == "rating" then Some(Rating)
    else if key == "comments" then Some(Comments)
    else if key == "user_agent" then Some(UserAgent)
    else if key == "submission_id" then Some(SubmissionId)
    else None
  }

  /** Every field is named by its own key, so no two fields share a key. */
  lemma FieldNamedOfKey(f: Field)
    ensures FieldNamed(Key(f)) == Some(f)
  {
  }

  /** One failed field of a `SurveySubmission` validation. */
  type Violation = FieldError<Field>

  const SubmissionKeys: set<string> :=
    {"name", "email", "age", "consent", "rating", "comments", "user_agent", "submission_id"}

  /** The fields `to_safe_dict` overwrites. */
  const AnonymisedKeys: set<string> := {"submission_id", "email", "age"}

  /** A validated `SurveySubmission`. */
  datatype Submission = Submission(
    name: string,
    email: string,
    age: int,
    consent: bool,
    rating: int,
    comments: Option<string>,
    userAgent: Option<string>,
    submissionId: Option<string>)

  /** What every validated submission satisfies. */
  predicate IsValid(s: Submission) {
    && NameMinLength <= |s.name| <= NameMaxLength
    && '@' in s.email
    && AgeMin <= s.age <= AgeMax
    && s.consent
    && RatingMin <= s.rating <= RatingMax
    && (s.comments.Some? ==> |s.comments.value| <= CommentsMaxLength && PyText.IsStripped(s.comments.value))
  }

  // ---------------------------------------------------------------------
  // Field validators of SurveySubmission
  // ---------------------------------------------------------------------

  /** `name: str = Field(..., min_length=1, max_length=100)`; the value is not trimmed. */
  function ValidateName(v: Option<Json>): (r: Result<string, ErrorKind>)
    ensures r.Success? ==> NameMinLength <= |r.value| <= NameMaxLength
    ensures v.Some? && v.value.JString? ==> (r.Success? <==> NameMinLength <= |v.value.s| <= NameMaxLength)
    ensures v.Some? && v.value.JString? && r.Success? ==> r.value == v.value.s
    ensures v.None? ==> r == Failure(Missing)
    ensures v == Some(JNull) ==> r == Failure(NoneNotAllowed)
    ensures v.Some? && !v.value.JNull? && StrValue(v.value).Failure? ==> r == Failure(NotStr)
    ensures v.Some? && StrValue(v.value).Success? ==>
      var t := StrValue(v.value).value;
      && (r.Success? <==> NameMinLength <= |t| <= NameMaxLength)
      && (r.Success? ==> r.value == t)
      && (|t| < NameMinLength ==> r == Failure(TooShort(NameMinLength)))
      && (NameMaxLength < |t| ==> r == Failure(TooLong(NameMaxLength)))
  {
    var j :- Required(v);
    var s :- StrValue(j);
    CheckLength(s, NameMinLength, NameMaxLength)
  }

  /** `email: EmailStr`: coerced to `str`, then checked and normalised. */
  function ValidateEmail(v: Option<Json>, emailStr: EmailValidator): (r: Result<string, ErrorKind>)
    ensures r.Success? ==> '@' in r.value
    ensures v.Some? && v.value.JString? ==> (r.Success? <==> emailStr(v.value.s).Some?)
    ensures v.Some? && v.value.JString? && r.Success? ==> r.value == emailStr(v.value.s).value
    ensures v.None? ==> r == Failure(Missing)
    ensures v == Some(JNull) ==> r == Failure(NoneNotAllowed)
    ensures v.Some? && !v.value.JNull? && StrValue(v.value).Failure? ==> r == Failure(NotStr)
    ensures v.Some? && StrValue(v.value).Success? ==>
      var a := emailStr(StrValue(v.value).value);
      && (a.Some? ==> r == Success(a.value))
      && (a.None? ==> r == Failure(NotEmail))
  {
    var j :- Required(v);
    var s :- StrValue(j);
    match emailStr(s)
    case Some(address) => Success(address)
    case None => Failure(NotEmail)
  }

  /** `int = Field(..., ge=lo, le=hi)` (`age` and `rating`). */
  function ValidateBoundedInt(v: Option<Json>, lo: int, hi: int): (r: Result<int, ErrorKind>)
    ensures r.Success? ==> lo <= r.value <= hi
    ensures v.Some? && v.value.JInt? ==> (r.Success? <==> lo <= v.value.i <= hi)
    ensures v.Some? && v.value.JInt? && r.Success? ==> r.value == v.value.i
    ensures v.Some? && v.value.JInt? && v.value.i < lo ==> r == Failure(NotGe(lo))
    ensures v.Some? && v.value.JInt? && lo <= v.value.i && hi < v.value.i ==> r == Failure(NotLe(hi))
    ensures v.None? ==> r == Failure(Missing)
    ensures v == Some(JNull) ==> r == Failure(NoneNotAllowed)
    ensures v.Some? && !v.value.JNull? && IntValue(v.value).Failure? ==> r == Failure(NotInt)
    ensures v.Some? && IntValue(v.value).Success? ==>
      var n := IntValue(v.value).value;
      && (r.Success? <==> lo <= n <= hi)
      && (r.Success? ==> r.value == n)
      && (n < lo ==> r == Failure(NotGe(lo)))
      && (lo <= n && hi < n ==> r == Failure(NotLe(hi)))
  {
    var j :- Required(v);
    var n :- IntValue(j);
    CheckRange(n, lo, hi)
  }

  /** `_must_consent`: anything but `True` is refused with "consent must be true". */
  function MustConsent(b: bool): (r: Result<bool, ErrorKind>)
    ensures r.Success? <==> b
    ensures r.Success? ==> r.value
    ensures !b ==> r == Failure(Invalid(ConsentMessage))
  {
    if b then Success(b) else Failure(Invalid(ConsentMessage))
  }

  /**
   * `consent: bool = Field(...)` followed by `_must_consent`, which runs only
   * on a value that passed the `bool` coercion (so an absent field is
   * "field required", not "consent must be true").
   */
  function ValidateConsent(v: Option<Json>): (r: Result<bool, ErrorKind>)
    ensures r.Success? ==> r.value
    ensures v.Some? ==> (r.Success? <==> BoolValue(v.value) == Success(true))
    ensures v.None? ==> r == Failure(Missing)
    ensures v == Some(JNull) ==> r == Failure(NoneNotAllowed)
    ensures v.Some? && BoolValue(v.value) == Success(false) ==> r == Failure(Invalid(ConsentMessage))
  {
    var j :- Required(v);
    var b :- BoolValue(j);
    MustConsent(b)
  }

  /** `_strip_comments`: a string is stripped, `None` stays `None`. */
  function StripComments(c: Option<string>): (r: Option<string>)
    ensures r.None? <==> c.None?
    ensures r.Some? ==> PyText.IsStripped(r.value) && |r.value| <= |c.value|
    ensures c.Some? ==> r == Some(PyText.Strip(c.value))
  {
    match c
    case Some(s) => Some(PyText.Strip(s))
    case None => None
  }

  /**
   * `comments: Optional[str] = Field(None, max_length=1000)` followed by
   * `_strip_comments`: the length is checked on the raw value, and only a
   * value that passed is stripped.
   */
  function ValidateComments(v: Option<Json>): (r: Result<Option<string>, ErrorKind>)
    ensures v.None? || v == Some(JNull) ==> r == Success(None)
    ensures v.Some? && v.value.JString? ==> (r.Success? <==> |v.value.s| <= CommentsMaxLength)
    ensures v.Some? && v.value.JString? && r.Success? ==> r.value == Some(PyText.Strip(v.value.s))
    ensures r.Success? && r.value.Some? ==> PyText.IsStripped(r.value.value) && |r.value.value| <= CommentsMaxLength
    ensures v.Some? && !v.value.JNull? && StrValue(v.value).Failure? ==> r == Failure(NotStr)
    ensures v.Some? && StrValue(v.value).Success? ==>
      var t := StrValue(v.value).value;
      && (r.Success? <==> |t| <= CommentsMaxLength)
      && (r.Success? ==> r.value == Some(PyText.Strip(t)))
      && (CommentsMaxLength < |t| ==> r == Failure(TooLong(CommentsMaxLength)))
  {
    if v.None? then
      Success(None)
    else if v.value.JNull? then
      Success(StripComments(None))
    else
      var s :- StrValue(v.value);
      var checked :- CheckLength(s, 0, CommentsMaxLength);
      Success(StripComments(Some(checked)))
  }

  /** `Optional[str] = None` (`user_agent`, `submission_id`, and the optional stored fields). */
  function ValidateOptionalStr(v: Option<Json>): (r: Result<Option<string>, ErrorKind>)
    ensures v.None? || v == Some(JNull) ==> r == Success(None)
    ensures v.Some? && v.value.JString? ==> r == Success(Some(v.value.s))
    ensures r.Failure? ==> r.error == NotStr
    ensures v.Some? && StrValue(v.value).Success? ==> r == Success(Some(StrValue(v.value).value))
    ensures v.Some? && !v.value.JNull? ==> (r.Failure? <==> StrValue(v.value).Failure?)
  {
    if v.None? || v.value.JNull? then
      Success(None)
    else
      var s :- StrValue(v.value);
      Success(Some(s))
  }

  function ErrorOf<T>(r: Result<T, ErrorKind>): (e: Option<ErrorKind>)
    ensures e.None? <==> r.Success?
    ensures r.Failure? ==> e == Some(r.error)
  {
    match r
    case Success(_) => None
    case Failure(k) => Some(k)
  }

  /** The error, if any, that the validator of the declared field `f` reports for the payload. */
  function FieldFailure(f: Field, fields: map<string, Json>, emailStr: EmailValidator): Option<ErrorKind> {
    var v := Lookup(fields, Key(f));
    match f
    case Name => ErrorOf(ValidateName(v))
    case Email => ErrorOf(ValidateEmail(v, emailStr))
    case Age => ErrorOf(ValidateBoundedInt(v, AgeMin, AgeMax))
    case Consent => ErrorOf(ValidateConsent(v))
    case Rating => ErrorOf(ValidateBoundedInt(v, RatingMin, RatingMax))
    case Comments => ErrorOf(ValidateComments(v))
    case UserAgent => ErrorOf(ValidateOptionalStr(v))
    case SubmissionId => ErrorOf(ValidateOptionalStr(v))
  }

  /**
   * `SurveySubmission(**payload)`: every declared field is validated
   * independently, in declaration order, and every failure is collected;
   * keys that are not declared fields are ignored.
   */
  function Validate(fields: map<string, Json>, emailStr: EmailValidator): (r: Result<Submission, seq<Violation>>)
    ensures r.Success? ==> IsValid(r.value)
    ensures r.Failure? ==> r.error != []
    ensures r.Success? <==>
      && ValidateName(Lookup(fields, "name")).Success?
      && ValidateEmail(Lookup(fields, "email"), emailStr).Success?
      && ValidateBoundedInt(Lookup(fields, "age"), AgeMin, AgeMax).Success?
      && ValidateConsent(Lookup(fields, "consent")).Success?
      && ValidateBoundedInt(Lookup(fields, "rating"), RatingMin, RatingMax).Success?
      && ValidateComments(Lookup(fields, "comments")).Success?
      && ValidateOptionalStr(Lookup(fields, "user_agent")).Success?
      && ValidateOptionalStr(Lookup(fields, "submission_id")).Success?
    ensures r.Success? ==>
      && ValidateName(Lookup(fields, "name")) == Success(r.value.name)
      && ValidateEmail(Lookup(fields, "email"), emailStr) == Success(r.value.email)
      && ValidateBoundedInt(Lookup(fields, "age"), AgeMin, AgeMax) == Success(r.value.age)
      && ValidateConsent(Lookup(fields, "consent")) == Success(r.value.consent)
      && ValidateBoundedInt(Lookup(fields, "rating"), RatingMin, RatingMax) == Success(r.value.rating)
      && ValidateComments(Lookup(fields, "comments")) == Success(r.value.comments)
      && ValidateOptionalStr(Lookup(fields, "user_agent")) == Success(r.value.userAgent)
      && ValidateOptionalStr(Lookup(fields, "submission_id")) == Success(r.value.submissionId)
  {
    Assemble(
      ValidateName(Lookup(fields, "name")),
      ValidateEmail(Lookup(fields, "email"), emailStr),
      ValidateBoundedInt(Lookup(fields, "age"), AgeMin, AgeMax),
      ValidateConsent(Lookup(fields, "consent")),
      ValidateBoundedInt(Lookup(fields, "rating"), RatingMin, RatingMax),
      ValidateComments(Lookup(fields, "comments")),
      ValidateOptionalStr(Lookup(fields, "user_agent")),
      ValidateOptionalStr(Lookup(fields, "submission_id")))
  }

  /**
   * The submission built from the eight field outcomes, or every failure in
   * declaration order.
   */
  function Assemble(
    name: Result<string, ErrorKind>, email: Result<string, ErrorKind>, age: Result<int, ErrorKind>,
    consent: Result<bool, ErrorKind>, rating: Result<int, ErrorKind>,
    comments: Result<Option<string>, ErrorKind>, userAgent: Result<Option<string>, ErrorKind>,
    submissionId: Result<Option<string>, ErrorKind>): (r: Result<Submission, seq<Violation>>)
    requires name.Success? ==> NameMinLength <= |name.value| <= NameMaxLength
    requires email.Success? ==> '@' in email.value
    requires age.Success? ==> AgeMin <= age.value <= AgeMax
    requires consent.Success? ==> consent.value
    requires rating.Success? ==> RatingMin <= rating.value <= RatingMax
    requires comments.Success? && comments.value.Some? ==>
      |comments.value.value| <= CommentsMaxLength && PyText.IsStripped(comments.value.value)
    ensures r.Success? ==> IsValid(r.value)
    ensures r.Failure? ==> r.error != []
    ensures r.Success? <==>
      name.Success? && email.Success? && age.Success? && consent.Success? && rating.Success?
      && comments.Success? && userAgent.Success? && submissionId.Success?
    ensures r.Success? ==>
      && name == Success(r.value.name) && email == Success(r.value.email) && age == Success(r.value.age)
      && consent == Success(r.value.consent) && rating == Success(r.value.rating)
      && comments == Success(r.value.comments) && userAgent == Success(r.value.userAgent)
      && submissionId == Success(r.value.submissionId)
  {
    var errors :=
      Report(Name, name) + Report(Email, email) + Report(Age, age) + Report(Consent, consent)
      + Report(Rating, rating) + Report(Comments, comments) + Report(UserAgent, userAgent)
      + Report(SubmissionId, submissionId);
    if errors != [] then
      Failure(errors)
    else
      Success(Submission(
        name.value, email.value, age.value, consent.value,
        rating.value, comments.value, userAgent.value, submissionId.value))
  }

  /** A payload is accepted exactly when no declared field fails. */
  lemma ValidateAcceptsIffNoFieldFails(fields: map<string, Json>, emailStr: EmailValidator)
    ensures Validate(fields, emailStr).Success? <==> forall f: Field :: FieldFailure(f, fields, emailStr).None?
  {
    if Validate(fields, emailStr).Success? {
      forall f: Field ensures FieldFailure(f, fields, emailStr).None? {
        FieldFailureCases(f, fields, emailStr);
      }
    } else {
      assert !(forall f: Field :: FieldFailure(f, fields, emailStr).None?) by {
        FieldFailureCases(Name, fields, emailStr);
        FieldFailureCases(Email, fields, emailStr);
        FieldFailureCases(Age, fields, emailStr);
        FieldFailureCases(Consent, fields, emailStr);
        FieldFailureCases(Rating, fields, emailStr);
        FieldFailureCases(Comments, fields, emailStr);
        FieldFailureCases(UserAgent, fields, emailStr);
        FieldFailureCases(SubmissionId, fields, emailStr);
      }
    }
  }

  /**
   * The errors of a rejected payload are exactly the failing fields, each
   * with the error its validator reports.
   */
  lemma ValidateErrorsAreFieldFailures(fields: map<string, Json>, emailStr: EmailValidator, f: Field, k: ErrorKind)
    requires Validate(fields, emailStr).Failure?
    ensures FieldError(f, k) in Validate(fields, emailStr).error <==> FieldFailure(f, fields, emailStr) == Some(k)
  {
    ValidateErrorsInOrder(fields, emailStr);
    InEightReports(FieldError(f, k),
      ValidateName(Lookup(fields, "name")),
      ValidateEmail(Lookup(fields, "email"), emailStr),
      ValidateBoundedInt(Lookup(fields, "age"), AgeMin, AgeMax),
      ValidateConsent(Lookup(fields, "consent")),
      ValidateBoundedInt(Lookup(fields, "rating"), RatingMin, RatingMax),
      ValidateComments(Lookup(fields, "comments")),
      ValidateOptionalStr(Lookup(fields, "user_agent")),
      ValidateOptionalStr(Lookup(fields, "submission_id")));
    FieldFailureCases(f, fields, emailStr);
  }

  /** The errors of a failed validation: each field's report, in declaration order. */
  lemma ValidateErrorsInOrder(fields: map<string, Json>, emailStr: EmailValidator)
    requires Validate(fields, emailStr).Failure?
    ensures Validate(fields, emailStr).error ==
      Report(Name, ValidateName(Lookup(fields, "name")))
      + Report(Email, ValidateEmail(Lookup(fields, "email"), emailStr))
      + Report(Age, ValidateBoundedInt(Lookup(fields, "age"), AgeMin, AgeMax))
      + Report(Consent, ValidateConsent(Lookup(fields, "consent")))
      + Report(Rating, ValidateBoundedInt(Lookup(fields, "rating"), RatingMin, RatingMax))
      + Report(Comments, ValidateComments(Lookup(fields, "comments")))
      + Report(UserAgent, ValidateOptionalStr(Lookup(fields, "user_agent")))
      + Report(SubmissionId, ValidateOptionalStr(Lookup(fields, "submission_id")))
  {
  }

  /** An error is among the eight reports exactly when it is the failure of the field it names. */
  lemma InEightReports(x: Violation,
    name: Result<string, ErrorKind>, email: Result<string, ErrorKind>, age: Result<int, ErrorKind>,
    consent: Result<bool, ErrorKind>, rating: Result<int, ErrorKind>, comments: Result<Option<string>, ErrorKind>,
    userAgent: Result<Option<string>, ErrorKind>, submissionId: Result<Option<string>, ErrorKind>)
    ensures (x in Report(Name, name) + Report(Email, email) + Report(Age, age) + Report(Consent, consent)
        + Report(Rating, rating) + Report(Comments, comments) + Report(UserAgent, userAgent)
        + Report(SubmissionId, submissionId))
      <==>
      (match x.loc
       case Name => name == Failure(x.kind)
       case Email => email == Failure(x.kind)
       case Age => age == Failure(x.kind)
       case Consent => consent == Failure(x.kind)
       case Rating => rating == Failure(x.kind)
       case Comments => comments == Failure(x.kind)
       case UserAgent => userAgent == Failure(x.kind)
       case SubmissionId => submissionId == Failure(x.kind))
  {
    InReport(x, Name, name);
    InReport(x, Email, email);
    InReport(x, Age, age);
    InReport(x, Consent, consent);
    InReport(x, Rating, rating);
    InReport(x, Comments, comments);
    InReport(x, UserAgent, userAgent);
    InReport(x, SubmissionId, submissionId);
  }

  /** Which validator `FieldFailure` consults for each field. */
  lemma FieldFailureCases(f: Field, fields: map<string, Json>, emailStr: EmailValidator)
    ensures f == Name ==> FieldFailure(f, fields, emailStr) == ErrorOf(ValidateName(Lookup(fields, "name")))
    ensures f == Email ==> FieldFailure(f, fields, emailStr) == ErrorOf(ValidateEmail(Lookup(fields, "email"), emailStr))
    ensures f == Age ==> FieldFailure(f, fields, emailStr) == ErrorOf(ValidateBoundedInt(Lookup(fields, "age"), AgeMin, AgeMax))
    ensures f == Consent ==> FieldFailure(f, fields, emailStr) == ErrorOf(ValidateConsent(Lookup(fields, "consent")))
    ensures f == Rating ==> FieldFailure(f, fields, emailStr) == ErrorOf(ValidateBoundedInt(Lookup(fields, "rating"), RatingMin, RatingMax))
    ensures f == Comments ==> FieldFailure(f, fields, emailStr) == ErrorOf(ValidateComments(Lookup(fields, "comments")))
    ensures f == UserAgent ==> FieldFailure(f, fields, emailStr) == ErrorOf(ValidateOptionalStr(Lookup(fields, "user_agent")))
    ensures f == SubmissionId ==> FieldFailure(f, fields, emailStr) == ErrorOf(ValidateOptionalStr(Lookup(fields, "submission_id")))
  {
  }

  // ---------------------------------------------------------------------
  // dict(), compute_submission_id(), to_safe_dict()
  // ---------------------------------------------------------------------

  /** `submission.dict()`: each declared field under its own name, as the Python value it holds. */
  function AsDict(s: Submission): (d: map<string, Json>)
    ensures d.Keys == SubmissionKeys
    ensures "received_at" !in d && "ip" !in d && "source" !in d
  {
    map[
      "name" := JString(s.name),
      "email" := JString(s.email),
      "age" := JInt(s.age),
      "consent" := JBool(s.consent),
      "rating" := JInt(s.rating),
      "comments" := FromOptional(s.comments),
      "user_agent" := FromOptional(s.userAgent),
      "submission_id" := FromOptional(s.submissionId)]
  }

  /** Python truthiness of `submission_id`: present and non-empty. */
  predicate HasClientId(s: Submission) {
    s.submissionId.Some? && s.submissionId.value != ""
  }

  /** The deduplication key: the e-mail followed by the `%Y%m%d%H` stamp of the current UTC hour. */
  function DerivedKey(email: string, now: Clock.UtcTime): (key: string)
    requires Clock.Valid(now)
    ensures |key| == |email| + 10
    ensures key[..|email|] == email && key[|email|..] == Clock.HourStamp(now)
  {
    email + Clock.HourStamp(now)
  }

  /** `compute_submission_id`: a non-empty client id passes through, otherwise the digest of the derived key. */
  function ComputeSubmissionId(s: Submission, now: Clock.UtcTime, sha256: Digest.Sha256Hex): (id: string)
    requires Clock.Valid(now)
    ensures HasClientId(s) ==> id == s.submissionId.value
    ensures !HasClientId(s) ==> Digest.IsHexDigest(id) && id == sha256(DerivedKey(s.email, now))
  {
    if HasClientId(s) then s.submissionId.value else sha256(DerivedKey(s.email, now))
  }

  /**
   * `to_safe_dict`: `.dict()` with `submission_id` resolved and `email` and
   * `age` replaced by digests of the address and of `str(age)`.
   */
  function ToSafeDict(s: Submission, now: Clock.UtcTime, sha256: Digest.Sha256Hex): (d: map<string, Json>)
    requires Clock.Valid(now)
    ensures d.Keys == AsDict(s).Keys
    ensures "received_at" !in d && "ip" !in d && "source" !in d
    ensures forall k :: k in AsDict(s) && k !in AnonymisedKeys ==> d[k] == AsDict(s)[k]
    ensures d["submission_id"] == JString(ComputeSubmissionId(s, now, sha256))
    ensures d["email"] == JString(sha256(s.email))
    ensures d["age"] == JString(sha256(Decimal.IntToDecimal(s.age)))
  {
    AnonymisedKeysAreDeclared();
    ReplaceAnonymised(AsDict(s),
      JString(ComputeSubmissionId(s, now, sha256)), JString(sha256(s.email)), JString(sha256(Decimal.IntToDecimal(s.age))))
  }

  lemma AnonymisedKeysAreDeclared()
    ensures AnonymisedKeys <= SubmissionKeys
  {
  }

  /** `d` with the values of `submission_id`, `email` and `age` replaced, every other entry kept. */
  function ReplaceAnonymised(d: map<string, Json>, id: Json, email: Json, age: Json): (r: map<string, Json>)
    requires AnonymisedKeys <= d.Keys
    ensures r.Keys == d.Keys
    ensures forall k :: k in d && k !in AnonymisedKeys ==> r[k] == d[k]
    ensures r["submission_id"] == id && r["email"] == email && r["age"] == age
  {
    d["submission_id" := id]["email" := email]["age" := age]
  }

  // ---------------------------------------------------------------------
  // StoredSurveyRecord
  // ---------------------------------------------------------------------

  /** A `StoredSurveyRecord`: one entry of the append-only log. */
  datatype StoredRecord = StoredRecord(
    name: string,
    email: string,
    age: string,
    consent: bool,
    rating: int,
    comments: Option<string>,
    source: string,
    userAgent: Option<string>,
    submissionId: Option<string>,
    receivedAt: Clock.UtcTime,
    ip: string)

  function RequiredStr(v: Option<Json>): Result<string, ErrorKind> {
    var j :- Required(v);
    StrValue(j)
  }

  function RequiredInt(v: Option<Json>): Result<int, ErrorKind> {
    var j :- Required(v);
    IntValue(j)
  }

  function RequiredBool(v: Option<Json>): Result<bool, ErrorKind> {
    var j :- Required(v);
    BoolValue(j)
  }

  /** A `str` field with a default: absent takes the default, `null` is refused. */
  function StrOrDefault(v: Option<Json>, default: string): (r: Result<string, ErrorKind>)
    ensures v.None? ==> r == Success(default)
  {
    if v.None? then Success(default) else RequiredStr(v)
  }

  /**
   * `StoredSurveyRecord(**d, received_at=receivedAt, ip=ip)`: the fields of
   * `d` are coerced to the stored types (an integer `age` becomes its decimal
   * text), `source` defaults to "other", and unknown keys are ignored.
   */
  function BuildStoredRecord(d: map<string, Json>, receivedAt: Clock.UtcTime, ip: string): (r: Result<StoredRecord, seq<FieldError<string>>>)
    requires "received_at" !in d && "ip" !in d
    ensures r.Success? ==> r.value.receivedAt == receivedAt && r.value.ip == ip
    ensures r.Success? && "source" !in d ==> r.value.source == DefaultSource
    ensures r.Success? && "age" in d && d["age"].JInt? ==> r.value.age == Decimal.IntToDecimal(d["age"].i)
    ensures r.Success? && "email" in d && d["email"].JString? ==> r.value.email == d["email"].s
    ensures r.Failure? ==> r.error != []
  {
    var name := RequiredStr(Lookup(d, "name"));
    var email := RequiredStr(Lookup(d, "email"));
    var age := RequiredStr(Lookup(d, "age"));
    var consent := RequiredBool(Lookup(d, "consent"));
    var rating := RequiredInt(Lookup(d, "rating"));
    var comments := ValidateOptionalStr(Lookup(d, "comments"));
    var source := StrOrDefault(Lookup(d, "source"), DefaultSource);
    var userAgent := ValidateOptionalStr(Lookup(d, "user_agent"));
    var submissionId := ValidateOptionalStr(Lookup(d, "submission_id"));
    var errors :=
      Report("name", name) + Report("email", email) + Report("age", age)
      + Report("consent", consent) + Report("rating", rating) + Report("comments", comments)
      + Report("source", source) + Report("user_agent", userAgent) + Report("submission_id", submissionId);
    if errors != [] then
      Failure(errors)
    else
      Success(StoredRecord(
        name.value, email.value, age.value, consent.value, rating.value, comments.value,
        source.value, userAgent.value, submissionId.value, receivedAt, ip))
  }

  // ---------------------------------------------------------------------
  // Properties
  // ---------------------------------------------------------------------

  /** The inclusive bounds of `age`, `rating` and `comments`, at and just past each edge. */
  lemma FieldBoundaries(long: string)
    requires |long| == CommentsMaxLength
    ensures ValidateBoundedInt(Some(JInt(12)), AgeMin, AgeMax) == Failure(NotGe(13))
    ensures ValidateBoundedInt(Some(JInt(13)), AgeMin, AgeMax) == Success(13)
    ensures ValidateBoundedInt(Some(JInt(120)), AgeMin, AgeMax) == Success(120)
    ensures ValidateBoundedInt(Some(JInt(121)), AgeMin, AgeMax) == Failure(NotLe(120))
    ensures ValidateBoundedInt(Some(JInt(0)), RatingMin, RatingMax) == Failure(NotGe(1))
    ensures ValidateBoundedInt(Some(JInt(1)), RatingMin, RatingMax) == Success(1)
    ensures ValidateBoundedInt(Some(JInt(5)), RatingMin, RatingMax) == Success(5)
    ensures ValidateBoundedInt(Some(JInt(6)), RatingMin, RatingMax) == Failure(NotLe(5))
    ensures ValidateComments(Some(JString(long))).Success?
    ensures ValidateComments(Some(JString(long + " "))) == Failure(TooLong(1000))
  {
  }

  /**
   * An age given as text goes through `int()`: blanks around the digits are
   * skipped, a leading file separator (U+001C) is an integer type error.
   */
  lemma AgeTextThroughInt()
    ensures ValidateBoundedInt(Some(JString("\t30 ")), AgeMin, AgeMax) == Success(30)
    ensures ValidateBoundedInt(Some(JString("\U{1C}30")), AgeMin, AgeMax) == Failure(NotInt)
  {
    Decimal.IntSkipsSpace();
    assert IntValue(JString("\t30 ")) == Success(30);
    Decimal.IntRejectsSeparator();
    assert IntValue(JString("\U{1C}30")) == Failure(NotInt);
  }

  /**
   * Values of another JSON type are converted before the constraints apply:
   * a numeric name, comment or client id becomes its decimal text, and
   * `true` becomes the rating 1.
   */
  lemma CoercedFieldValues()
    ensures ValidateBoundedInt(Some(JString("30")), AgeMin, AgeMax) == Success(30)
    ensures ValidateBoundedInt(Some(JBool(true)), RatingMin, RatingMax) == Success(1)
    ensures ValidateName(Some(JInt(7))) == Success("7")
    ensures ValidateComments(Some(JInt(5))) == Success(Some("5"))
    ensures ValidateOptionalStr(Some(JInt(42))) == Success(Some("42"))
  {
    StringAgeConverted();
    NumericNameConverted();
    NumericCommentConverted();
    NumericTextConverted();
  }

  lemma StringAgeConverted()
    ensures ValidateBoundedInt(Some(JString("30")), AgeMin, AgeMax) == Success(30)
  {
    ParseIntOfThirty();
  }

  lemma NumericNameConverted()
    ensures ValidateName(Some(JInt(7))) == Success("7")
  {
    assert Decimal.IntToDecimal(7) == "7";
  }

  lemma NumericCommentConverted()
    ensures ValidateComments(Some(JInt(5))) == Success(Some("5"))
  {
    assert Decimal.IntToDecimal(5) == "5";
    PyText.StripOfStripped("5");
  }

  lemma NumericTextConverted()
    ensures ValidateOptionalStr(Some(JInt(42))) == Success(Some("42"))
  {
    assert Decimal.NatToDecimal(4) == "4";
    assert Decimal.NatToDecimal(42) == Decimal.NatToDecimal(4) + "2";
    assert Decimal.IntToDecimal(42) == "42";
  }

  lemma ParseIntOfThirty()
    ensures Decimal.ParseInt("30") == Some(30)
  {
    assert PyText.Strip("30") == "30" by { PyText.StripOfStripped("30"); }
    Decimal.ParseIntOfDigits("30");
    assert "30"[..1] == "3";
  }

  /** A numeric client id is kept as its text: `"submission_id": 42` becomes the id "42". */
  lemma NumericClientIdKept(s: Submission, now: Clock.UtcTime, sha256: Digest.Sha256Hex)
    requires Clock.Valid(now)
    requires Success(s.submissionId) == ValidateOptionalStr(Some(JInt(42)))
    ensures ComputeSubmissionId(s, now, sha256) == "42"
  {
    CoercedFieldValues();
  }

  /** A validated submission always consented. */
  lemma ValidatedSubmissionConsented(fields: map<string, Json>, emailStr: EmailValidator)
    requires Validate(fields, emailStr).Success?
    ensures Validate(fields, emailStr).value.consent
  {
  }

  /**
   * Consent gates acceptance: `false` (or anything that reads as false) is
   * refused with "consent must be true", and an absent field is refused as a
   * missing field; either way the payload is rejected.
   */
  lemma ConsentRefusals(fields: map<string, Json>, emailStr: EmailValidator)
    ensures "consent" !in fields ==>
      Validate(fields, emailStr).Failure? && FieldError(Consent, Missing) in Validate(fields, emailStr).error
    ensures "consent" in fields && BoolValue(fields["consent"]) == Success(false) ==>
      && Validate(fields, emailStr).Failure?
      && FieldError(Consent, Invalid(ConsentMessage)) in Validate(fields, emailStr).error
  {
    var v := Lookup(fields, "consent");
    if "consent" !in fields {
      assert ValidateConsent(v) == Failure(Missing);
    } else if BoolValue(fields["consent"]) == Success(false) {
      assert ValidateConsent(v) == Failure(Invalid(ConsentMessage));
    }
  }

  /** Validated comments have no surrounding whitespace, and stripping them again changes nothing. */
  lemma ValidatedCommentsStripped(fields: map<string, Json>, emailStr: EmailValidator)
    requires Validate(fields, emailStr).Success?
    ensures StripComments(Validate(fields, emailStr).value.comments) == Validate(fields, emailStr).value.comments
  {
    var c := Validate(fields, emailStr).value.comments;
    if c.Some? {
      PyText.StripOfStripped(c.value);
    }
  }

  /** `_strip_comments` is idempotent and keeps `None` as `None`. */
  lemma StripCommentsIdempotent(c: Option<string>)
    ensures StripComments(StripComments(c)) == StripComments(c)
    ensures c.None? ==> StripComments(c).None?
  {
    if c.Some? {
      PyText.StripIdempotent(c.value);
    }
  }

  /**
   * Validation and `.dict()` are inverse: re-validating the dict of a valid
   * submission returns that submission, provided the e-mail check keeps the
   * already-normalised address as it is.
   */
  lemma ValidateAsDictRoundTrip(s: Submission, emailStr: EmailValidator)
    requires IsValid(s)
    requires emailStr(s.email) == Some(s.email)
    ensures Validate(AsDict(s), emailStr) == Success(s)
  {
    AsDictLookups(s);
    ValidateOfDictValues(AsDict(s), s, emailStr);
  }

  /** A mapping that holds a valid submission's values under their keys validates to that submission. */
  lemma ValidateOfDictValues(d: map<string, Json>, s: Submission, emailStr: EmailValidator)
    requires IsValid(s)
    requires emailStr(s.email) == Some(s.email)
    requires Lookup(d, "name") == Some(JString(s.name))
    requires Lookup(d, "email") == Some(JString(s.email))
    requires Lookup(d, "age") == Some(JInt(s.age))
    requires Lookup(d, "consent") == Some(JBool(s.consent))
    requires Lookup(d, "rating") == Some(JInt(s.rating))
    requires Lookup(d, "comments") == Some(FromOptional(s.comments))
    requires Lookup(d, "user_agent") == Some(FromOptional(s.userAgent))
    requires Lookup(d, "submission_id") == Some(FromOptional(s.submissionId))
    ensures Validate(d, emailStr) == Success(s)
  {
    ValidValuesPass(s, emailStr);
    ValidateAcceptsPassingFields(d, emailStr, s);
  }

  /** Each value of a valid submission passes its own field's validator unchanged. */
  lemma ValidValuesPass(s: Submission, emailStr: EmailValidator)
    requires IsValid(s)
    requires emailStr(s.email) == Some(s.email)
    ensures ValidateName(Some(JString(s.name))) == Success(s.name)
    ensures ValidateEmail(Some(JString(s.email)), emailStr) == Success(s.email)
    ensures ValidateBoundedInt(Some(JInt(s.age)), AgeMin, AgeMax) == Success(s.age)
    ensures ValidateConsent(Some(JBool(s.consent))) == Success(s.consent)
    ensures ValidateBoundedInt(Some(JInt(s.rating)), RatingMin, RatingMax) == Success(s.rating)
    ensures ValidateComments(Some(FromOptional(s.comments))) == Success(s.comments)
    ensures ValidateOptionalStr(Some(FromOptional(s.userAgent))) == Success(s.userAgent)
    ensures ValidateOptionalStr(Some(FromOptional(s.submissionId))) == Success(s.submissionId)
  {
    if s.comments.Some? {
      PyText.StripOfStripped(s.comments.value);
    }
    assert BoolValue(JBool(s.consent)) == Success(true);
  }

  /** Where each field of a submission sits in its `.dict()`. */
  lemma AsDictLookups(s: Submission)
    ensures Lookup(AsDict(s), "name") == Some(JString(s.name))
    ensures Lookup(AsDict(s), "email") == Some(JString(s.email))
    ensures Lookup(AsDict(s), "age") == Some(JInt(s.age))
    ensures Lookup(AsDict(s), "consent") == Some(JBool(s.consent))
    ensures Lookup(AsDict(s), "rating") == Some(JInt(s.rating))
    ensures Lookup(AsDict(s), "comments") == Some(FromOptional(s.comments))
    ensures Lookup(AsDict(s), "user_agent") == Some(FromOptional(s.userAgent))
    ensures Lookup(AsDict(s), "submission_id") == Some(FromOptional(s.submissionId))
    ensures Lookup(AsDict(s), "source").None? && "received_at" !in AsDict(s) && "ip" !in AsDict(s)
  {
  }

  /** When every field's validator passes, `Validate` returns the submission of their values. */
  lemma ValidateAcceptsPassingFields(fields: map<string, Json>, emailStr: EmailValidator, s: Submission)
    requires ValidateName(Lookup(fields, "name")) == Success(s.name)
    requires ValidateEmail(Lookup(fields, "email"), emailStr) == Success(s.email)
    requires ValidateBoundedInt(Lookup(fields, "age"), AgeMin, AgeMax) == Success(s.age)
    requires ValidateConsent(Lookup(fields, "consent")) == Success(s.consent)
    requires ValidateBoundedInt(Lookup(fields, "rating"), RatingMin, RatingMax) == Success(s.rating)
    requires ValidateComments(Lookup(fields, "comments")) == Success(s.comments)
    requires ValidateOptionalStr(Lookup(fields, "user_agent")) == Success(s.userAgent)
    requires ValidateOptionalStr(Lookup(fields, "submission_id")) == Success(s.submissionId)
    ensures Validate(fields, emailStr) == Success(s)
  {
  }

  /**
   * The derived key determines both the e-mail and the UTC hour: two keys are
   * equal exactly when the addresses are equal and the instants share the hour.
   */
  lemma DerivedKeyInjective(e1: string, t1: Clock.UtcTime, e2: string, t2: Clock.UtcTime)
    requires Clock.Valid(t1) && Clock.Valid(t2)
    ensures DerivedKey(e1, t1) == DerivedKey(e2, t2) <==> e1 == e2 && Clock.SameHour(t1, t2)
  {
    Clock.HourStampIdentifiesHour(t1, t2);
    if DerivedKey(e1, t1) == DerivedKey(e2, t2) {
      var k := DerivedKey(e1, t1);
      assert e1 == k[..|e1|] == e2;
      assert Clock.HourStamp(t1) == k[|e1|..] == Clock.HourStamp(t2);
    }
  }

  /**
   * Without a client id, one submission made twice in the same UTC hour gets
   * the same id; in different hours the keys that are hashed differ.
   */
  lemma SubmissionIdPerHour(s: Submission, a: Clock.UtcTime, b: Clock.UtcTime, sha256: Digest.Sha256Hex)
    requires Clock.Valid(a) && Clock.Valid(b)
    requires !HasClientId(s)
    ensures Clock.SameHour(a, b) ==> ComputeSubmissionId(s, a, sha256) == ComputeSubmissionId(s, b, sha256)
    ensures !Clock.SameHour(a, b) ==> DerivedKey(s.email, a) != DerivedKey(s.email, b)
  {
    DerivedKeyInjective(s.email, a, s.email, b);
  }

  /**
   * `to_safe_dict` never reproduces the raw e-mail or the raw age: both are
   * replaced by 64-character lower-case hex digests, which contain no `@` and
   * are longer than any valid age's decimal text.
   */
  lemma SafeDictHidesPii(s: Submission, now: Clock.UtcTime, sha256: Digest.Sha256Hex)
    requires IsValid(s) && Clock.Valid(now)
    ensures var d := ToSafeDict(s, now, sha256);
      && d["email"].JString? && Digest.IsHexDigest(d["email"].s) && d["email"].s != s.email
      && d["age"].JString? && Digest.IsHexDigest(d["age"].s) && d["age"].s != Decimal.IntToDecimal(s.age)
  {
    DigestsDifferFromRaw(s, sha256);
  }

  /** Neither digest can equal the value it replaces: the address has an `@`, the age text is at most three characters. */
  lemma DigestsDifferFromRaw(s: Submission, sha256: Digest.Sha256Hex)
    requires IsValid(s)
    ensures sha256(s.email) != s.email
    ensures sha256(Decimal.IntToDecimal(s.age)) != Decimal.IntToDecimal(s.age)
  {
    Digest.DigestIsNotAnAddress(sha256(s.email), s.email);
    Decimal.Pow10Values();
    Decimal.NatToDecimalLength(s.age, 3);
  }

  /** The stored `age` text reads back, through `int()`, as the validated age. */
  lemma StoredAgeReadsBack(s: Submission)
    requires IsValid(s)
    ensures Decimal.ParseInt(Decimal.IntToDecimal(s.age)) == Some(s.age)
  {
    Decimal.Pow10Values();
    Decimal.NatToDecimalLength(s.age, 3);
    Decimal.ParseIntOfDecimal(s.age);
  }

  /**
   * `StoredSurveyRecord(**d, ...)` succeeds with exactly the record whose
   * fields are the coerced values of `d`.
   */
  lemma BuildFromLookups(d: map<string, Json>, receivedAt: Clock.UtcTime, ip: string, rec: StoredRecord)
    requires "received_at" !in d && "ip" !in d
    requires RequiredStr(Lookup(d, "name")) == Success(rec.name)
    requires RequiredStr(Lookup(d, "email")) == Success(rec.email)
    requires RequiredStr(Lookup(d, "age")) == Success(rec.age)
    requires RequiredBool(Lookup(d, "consent")) == Success(rec.consent)
    requires RequiredInt(Lookup(d, "rating")) == Success(rec.rating)
    requires ValidateOptionalStr(Lookup(d, "comments")) == Success(rec.comments)
    requires StrOrDefault(Lookup(d, "source"), DefaultSource) == Success(rec.source)
    requires ValidateOptionalStr(Lookup(d, "user_agent")) == Success(rec.userAgent)
    requires ValidateOptionalStr(Lookup(d, "submission_id")) == Success(rec.submissionId)
    requires rec.receivedAt == receivedAt && rec.ip == ip
    ensures BuildStoredRecord(d, receivedAt, ip) == Success(rec)
  {
  }

  /**
   * `StoredSurveyRecord(**submission.dict(), ...)` always succeeds, keeps
   * every field's value (the age as its decimal text) and sets `source` to
   * its default.
   */
  lemma RecordOfSubmission(s: Submission, receivedAt: Clock.UtcTime, ip: string)
    ensures BuildStoredRecord(AsDict(s), receivedAt, ip) == Success(StoredRecord(
      s.name, s.email, Decimal.IntToDecimal(s.age), s.consent, s.rating, s.comments,
      DefaultSource, s.userAgent, s.submissionId, receivedAt, ip))
  {
    AsDictLookups(s);
    RecordOfDictValues(AsDict(s), s, receivedAt, ip);
  }

  lemma RecordOfDictValues(d: map<string, Json>, s: Submission, receivedAt: Clock.UtcTime, ip: string)
    requires Lookup(d, "name") == Some(JString(s.name))
    requires Lookup(d, "email") == Some(JString(s.email))
    requires Lookup(d, "age") == Some(JInt(s.age))
    requires Lookup(d, "consent") == Some(JBool(s.consent))
    requires Lookup(d, "rating") == Some(JInt(s.rating))
    requires Lookup(d, "comments") == Some(FromOptional(s.comments))
    requires Lookup(d, "user_agent") == Some(FromOptional(s.userAgent))
    requires Lookup(d, "submission_id") == Some(FromOptional(s.submissionId))
    requires Lookup(d, "source").None? && "received_at" !in d && "ip" !in d
    ensures BuildStoredRecord(d, receivedAt, ip) == Success(StoredRecord(
      s.name, s.email, Decimal.IntToDecimal(s.age), s.consent, s.rating, s.comments,
      DefaultSource, s.userAgent, s.submissionId, receivedAt, ip))
  {
    BuildFromLookups(d, receivedAt, ip, StoredRecord(
      s.name, s.email, Decimal.IntToDecimal(s.age), s.consent, s.rating, s.comments,
      DefaultSource, s.userAgent, s.submissionId, receivedAt, ip));
  }

  /** Where each field sits in the result of `to_safe_dict()`. */
  lemma SafeDictLookups(s: Submission, now: Clock.UtcTime, sha256: Digest.Sha256Hex)
    requires Clock.Valid(now)
    ensures var d := ToSafeDict(s, now, sha256);
      && Lookup(d, "name") == Some(JString(s.name))
      && Lookup(d, "email") == Some(JString(sha256(s.email)))
      && Lookup(d, "age") == Some(JString(sha256(Decimal.IntToDecimal(s.age))))
      && Lookup(d, "consent") == Some(JBool(s.consent))
      && Lookup(d, "rating") == Some(JInt(s.rating))
      && Lookup(d, "comments") == Some(FromOptional(s.comments))
      && Lookup(d, "user_agent") == Some(FromOptional(s.userAgent))
      && Lookup(d, "submission_id") == Some(JString(ComputeSubmissionId(s, now, sha256)))
      && Lookup(d, "source").None? && "received_at" !in d && "ip" !in d
  {
    AsDictLookups(s);
  }

  /**
   * `StoredSurveyRecord(**submission.to_safe_dict(), ...)` always succeeds and
   * keeps the digests and the resolved submission id.
   */
  lemma RecordOfSafeDict(s: Submission, now: Clock.UtcTime, sha256: Digest.Sha256Hex, ip: string)
    requires Clock.Valid(now)
    ensures BuildStoredRecord(ToSafeDict(s, now, sha256), now, ip) == Success(StoredRecord(
      s.name, sha256(s.email), sha256(Decimal.IntToDecimal(s.age)), s.consent, s.rating, s.comments,
      DefaultSource, s.userAgent, Some(ComputeSubmissionId(s, now, sha256)), now, ip))
  {
    SafeDictLookups(s, now, sha256);
    RecordOfSafeValues(ToSafeDict(s, now, sha256), s, sha256(s.email), sha256(Decimal.IntToDecimal(s.age)),
      ComputeSubmissionId(s, now, sha256), now, ip);
  }

  lemma RecordOfSafeValues(d: map<string, Json>, s: Submission, email: string, age: string, id: string, receivedAt: Clock.UtcTime, ip: string)
    requires Lookup(d, "name") == Some(JString(s.name))
    requires Lookup(d, "email") == Some(JString(email))
    requires Lookup(d, "age") == Some(JString(age))
    requires Lookup(d, "consent") == Some(JBool(s.consent))
    requires Lookup(d, "rating") == Some(JInt(s.rating))
    requires Lookup(d, "comments") == Some(FromOptional(s.comments))
    requires Lookup(d, "user_agent") == Some(FromOptional(s.userAgent))
    requires Lookup(d, "submission_id") == Some(JString(id))
    requires Lookup(d, "source").None? && "received_at" !in d && "ip" !in d
    ensures BuildStoredRecord(d, receivedAt, ip) == Success(StoredRecord(
      s.name, email, age, s.consent, s.rating, s.comments,
      DefaultSource, s.userAgent, Some(id), receivedAt, ip))
  {
    BuildFromLookups(d, receivedAt, ip, StoredRecord(
      s.name, email, age, s.consent, s.rating, s.comments,
      DefaultSource, s.userAgent, Some(id), receivedAt, ip));
  }
}

=== FILE: pytext.dfy ===
/**
 * The parts of Python's `str` behaviour the survey model relies on:
 * `str.isspace()` on one code point, `str.strip()` without arguments,
 * and lower-casing as far as comparisons with ASCII words can observe it.
 */
module PyText {

  /** `c.isspace()`: the code points Python counts as whitespace. */
  predicate IsSpace(c: char) {
    || ('\U{9}' <= c <= '\U{D}')
    || ('\U{1C}' <= c <= '\U{20}')
    || c == '\U{85}' || c == '\U{A0}' || c == '\U{1680}'
    || ('\U{2000}' <= c <= '\U{200A}')
    || c == '\U{2028}' || c == '\U{2029}' || c == '\U{202F}'
    || c == '\U{205F}' || c == '\U{3000}'
  }

  /** Every character of `s` from index `lo` up to (not including) `hi` is whitespace. */
  predicate SpaceBetween(s: string, lo: int, hi: int)
    requires 0 <= lo <= hi <= |s|
  {
    forall k :: lo <= k < hi ==> IsSpace(s[k])
  }

  /** Neither end of `s` is whitespace. */
  predicate IsStripped(s: string) {
    s == [] || (!IsSpace(s[0]) && !IsSpace(s[|s| - 1]))
  }

  /** The length of the leading whitespace run: `len(s) - len(s.lstrip())`. */
  function LeadingSpace(s: string): (n: nat)
    ensures n <= |s| && SpaceBetween(s, 0, n)
    ensures n == |s| || !IsSpace(s[n])
  {
    if |s| == 0 || !IsSpace(s[0]) then
      0
    else
      var n := LeadingSpace(s[1..]);
      assert forall k :: 1 <= k < n + 1 ==> s[k] == s[1..][k - 1];
      n + 1
  }

  /** The length of the trailing whitespace run: `len(s) - len(s.rstrip())`. */
  function TrailingSpace(s: string): (n: nat)
    ensures n <= |s| && SpaceBetween(s, |s| - n, |s|)
    ensures n == |s| || !IsSpace(s[|s| - n - 1])
  {
    if |s| == 0 || !IsSpace(s[|s| - 1]) then
      0
    else
      var n := TrailingSpace(s[..|s| - 1]);
      assert forall k :: |s| - 1 - n <= k < |s| - 1 ==> s[k] == s[..|s| - 1][k];
      n + 1
  }

  /** `s.strip()`: removes the whitespace runs at both ends and nothing else. */
  function Strip(s: string): (r: string)
    ensures IsStripped(r)
    ensures LeadingSpace(s) + |r| <= |s|
    ensures r == s[LeadingSpace(s)..LeadingSpace(s) + |r|]
    ensures SpaceBetween(s, LeadingSpace(s) + |r|, |s|)
  {
    var i := LeadingSpace(s);
    var t := s[i..];
    var j := i + (|t| - TrailingSpace(t));
    var r := s[i..j];
    assert SpaceBetween(s, j, |s|) by {
      forall k | j <= k < |s| ensures IsSpace(s[k]) { assert s[k] == t[k - i]; }
    }
    assert r != [] ==> r[0] == s[i] && r[|r| - 1] == t[j - i - 1];
    r
  }

  /**
   * `Strip` is the only way to cut `s` into whitespace, a core with no
   * whitespace at either end, and whitespace: any such cut has `Strip(s)`
   * as its core.
   */
  lemma StripIsTheStrippedCore(s: string, i: nat, j: nat)
    requires i <= j <= |s|
    requires SpaceBetween(s, 0, i) && SpaceBetween(s, j, |s|) && IsStripped(s[i..j])
    ensures Strip(s) == s[i..j]
  {
    if i == j {
      assert SpaceBetween(s, 0, |s|);
      LeadingSpaceAt(s, |s|);
    } else {
      assert !IsSpace(s[i]) by { assert s[i..j][0] == s[i]; }
      assert !IsSpace(s[j - 1]) by { assert s[i..j][j - i - 1] == s[j - 1]; }
      LeadingSpaceAt(s, i);
      var t := s[i..];
      assert SpaceBetween(t, j - i, |t|) by {
        forall k | j - i <= k < |t| ensures IsSpace(t[k]) { assert t[k] == s[k + i]; }
      }
      assert t[j - i - 1] == s[j - 1];
      TrailingSpaceAt(t, |s| - j);
    }
  }

  /** The leading whitespace run ends at the first non-whitespace character. */
  lemma LeadingSpaceAt(s: string, i: nat)
    requires i <= |s| && SpaceBetween(s, 0, i) && (i == |s| || !IsSpace(s[i]))
    ensures LeadingSpace(s) == i
  {
  }

  /** The trailing whitespace run starts after the last non-whitespace character. */
  lemma TrailingSpaceAt(t: string, n: nat)
    requires n <= |t| && SpaceBetween(t, |t| - n, |t|) && (n == |t| || !IsSpace(t[|t| - n - 1]))
    ensures TrailingSpace(t) == n
  {
  }

  /** Stripping a string whose ends are not whitespace returns it unchanged. */
  lemma StripOfStripped(s: string)
    requires IsStripped(s)
    ensures Strip(s) == s
  {
    StripIsTheStrippedCore(s, 0, |s|);
  }

  /** `s.strip().strip() == s.strip()`. */
  lemma StripIdempotent(s: string)
    ensures Strip(Strip(s)) == Strip(s)
  {
    StripOfStripped(Strip(s));
  }

  /** ASCII lower-casing of one character. */
  function LowerChar(c: char): char {
    if 'A' <= c <= 'Z' then (c as int + 32) as char else c
  }

  /**
   * `s.lower()`, as far as equality with an ASCII word can tell: the only
   * non-ASCII characters Python lowers into ASCII are the Kelvin sign (to `k`)
   * and U+0130 (to `i` plus a combining dot), neither of which occurs in
   * the words the model compares against.
   */
  function Lower(s: string): (r: string)
    ensures |r| == |s|
    ensures forall k :: 0 <= k < |r| ==> !('A' <= r[k] <= 'Z')
    ensures forall k :: 0 <= k < |s| ==>
      if 'A' <= s[k] <= 'Z' then r[k] as int == s[k] as int + 32 else r[k] == s[k]
  {
    seq(|s|, k requires 0 <= k < |s| => LowerChar(s[k]))
  }
}

=== FILE: wrappers.dfy ===
/** Failure-carrying wrappers shared by every module of the model. */
module Wrappers {

  /** An optional value: Python's `None` or a present value. */
  datatype Option<+T> = None | Some(value: T) {

    /** The present value, or `default` when absent. */
    function GetOr(default: T): T {
      match this
      case Some(v) => v
      case None => default
    }
  }

  /** Either a value or an error; usable with `:-`. */
  datatype Result<+R, +E> = Success(value: R) | Failure(error: E) {

    predicate IsFailure() {
      Failure?
    }

    function PropagateFailure<U>(): Result<U, E>
      requires Failure?
    {
      Failure(error)
    }

    function Extract(): R
      requires Success?
    {
      value
    }
  }
}
